=== FILE: README.md ===
# n2-k8s orchestrator core, modelled in Dafny

n2-k8s stands up a small Kubernetes cluster on Google Compute Engine.
Its `K8S` class (`src/lib/n2/k8s.js`) takes a configuration record and
builds four kinds of thing from it:

- instance names;
- provider and `kubectl` command lines;
- certificate requests;
- file paths.

It runs those commands through a shell. It keeps a cached snapshot of
the provider's state. It also renders templates and bootstrap tokens.

This project models that class as pure functions over two inputs:

- the configuration (`Cluster.Config`);
- the optional cloud snapshot (`Cloud.Cache`).

Every shell command, file write, file read, template render and unlink is
an opaque `Exec.Effect`. An oracle `Effect -> Settle` decides how each one
settles: resolved, rejected or never settled. Two combinators describe how
outcomes combine:

- `Exec.Chain` is a `.then` chain. It runs one item after another and
  stops at the first item that does not resolve.
- `Exec.All` is `Promise.all`. It launches every item at once.

Modules, in dependency order:

- `Text`: the JavaScript string behaviour the class relies on. It covers
  substring `match`, ASCII case mapping, decimal rendering, `join`, the
  first-occurrence `replace`, and the trailing line break `exec` strips.
- `Cluster`: the configuration and the topology naming.
- `Cloud`: snapshot descriptors, the lookups, and the `status`/`storeStatus`
  cache state machine.
- `Exec`: effects, combinators and the `compute` wrapper.
- `Pki`: certificate requests, cfssl flags and output paths, and
  `create_certificates`.
- `Contexts`: the five kubectl commands of each kubeconfig context.
- `Render`: template and output paths of `renderFile`.
- `Bootstrap`: the bootstrap token, the detached signature, the indented
  kubeconfig, and the bootstrap chain.
- `Provision`: network, rules, instances, teardown, per-instance renders,
  distribution and OS update.
- `Pipeline`: the `create(type)` dispatch, and `up`, `start` and `reset`.

The model follows the code where the code and its documentation disagree:

- The certificate pattern is `/^cert(ificate)s?/i`. Its group is not
  optional, so only a type starting with `certificate` selects the
  certificates. `cert` and `certs` select nothing.
- `create('encryption')` calls a method the class does not define. The
  step therefore rejects with a type error instead of doing nothing.
- `/^all$/i` is case-insensitive, so `ALL` builds everything too.
- A worker certificate never gets a `-hostname` flag, because
  `[] || […]` evaluates to `[]`.
- A failing command does not stop a chain. `exec` resolves with the
  captured output whatever the command's exit status, and rejects only
  when the shell call itself throws. `down`, `up` and each context chain
  therefore carry on past a command that exits non-zero.
- `create_certificates` does not wait for the CA before the other
  subjects. A request-file write that fails leaves the whole step unsettled
  rather than rejected.
- A certificate whose cfssl call throws, or whose unlink never calls
  back, never settles. The throw happens inside a file-system callback, so
  it reaches neither `resolve` nor `reject`. It is an uncaught exception,
  and with no handler installed it ends the Node process; "never settles"
  is how the promise sees it. An unlink's own error is ignored.

The default configuration's values (app `n2`, one controller, one worker,
ports 6443/80/22/2379/2380) appear as concrete witnesses.

## Model

| member | source | states |
|---|---|---|
| Cluster.EffectivePrefix | src/lib/n2/k8s.js:245-248 | the name prefix of a role is never empty: a missing prefix falls back to the role word |
| Cluster.RoleNames | src/lib/n2/k8s.js:63-66 | a role contributes exactly `count` names, none for a zero or missing count |
| Cluster.LastDash | src/lib/n2/k8s.js:245-248 | finds the last `-` of a name, or reports that there is none |
| Cluster.ParseInstanceNameRoundTrip | src/lib/n2/k8s.js:245-248 | an instance name `<prefix>-<n>` parses back into its prefix and ordinal |
| Cluster.NameFormInjective | src/lib/n2/k8s.js:245-248 | equal names have equal prefixes and ordinals |
| Cluster.InstanceNameInjective | src/lib/n2/k8s.js:245-248 | two instance names are equal only if their prefixes and ordinals are |
| Cluster.InstanceNamesShape | src/lib/n2/k8s.js:258-267 | spells out the definition index by index: `instanceNames()` lists the controllers `<prefix>-1..count` first, then the workers |
| Cluster.InstanceNamesDistinct | src/lib/n2/k8s.js:258-267 | the names are pairwise distinct whenever the two roles' prefixes differ or one role is empty |
| Cluster.OneControllerTwoWorkers | src/lib/n2/k8s.js:63-66 | with the default prefixes, one controller and two workers are named `controller-1`, `worker-1`, `worker-2` |
| Cloud.IndexByNameSpec | src/lib/n2/k8s.js:175-189 | the instance map has a key exactly for each name of a present descriptor, and maps it to the last descriptor with that name |
| Cloud.Interface | src/lib/n2/k8s.js:269-274 | an interface is found exactly when the snapshot, the instance and a non-empty interface list are all present |
| Cloud.PublicIP | src/lib/n2/k8s.js:276-280 | the public address is the first access configuration's NAT address of the first interface, and absent without an interface or access configuration |
| Cloud.PrivateIP | src/lib/n2/k8s.js:281-284 | the private address is the first interface's internal address, and absent without an interface |
| Cloud.SubnetCidr | src/lib/n2/k8s.js:305-307 | the subnet range is the subnet's `ipCidrRange`, and absent when the snapshot has no subnet |
| Cloud.ForwardingIP | src/lib/n2/k8s.js:309-314 | for `api` and `health` the address is that rule's `IPAddress`, absent when the rule was not found; it is absent without forwarding data, and for any other rule name |
| Cloud.RuleLookupsAfterFetch | src/lib/n2/k8s.js:220-243 | after a fetch the subnet range and the `api` and `health` addresses are those of the descriptors the provider returned, and absent where it returned none |
| Cloud.LookupAfterFetch | src/lib/n2/k8s.js:220-243 | after a fetch, an instance's addresses are those of the descriptor the provider returned for it, and absent when none was returned |
| Cloud.LookupsTolerateAbsence | src/lib/n2/k8s.js:269-314 | with no snapshot the interface lookups are absent, and on the initial all-null snapshot every lookup is absent |
| Cloud.Status | src/lib/n2/k8s.js:327-332 | `status()` serves the cache exactly when the cache has a network, otherwise it fetches and caches the result |
| Cloud.StatusAfterFetch | src/lib/n2/k8s.js:327-332 | a second `status()` is served from the cache when the first found a network, and refetches otherwise |
| Cloud.StoreStatus | src/lib/n2/k8s.js:368-384 | a forced store always refetches; an unforced one refetches exactly when the cache is null or has no network, and otherwise keeps the cache; a refetch stores the fresh snapshot, and either way the cache then holds the stored snapshot |
| Exec.Chain | src/lib/n2/k8s.js:669-716 | a `.then` chain starts a prefix of its items, resolves exactly when every item resolves, and ends with the outcome of the first item whose promise does not resolve |
| Exec.Combine | src/lib/n2/k8s.js:728-730 | `Promise.all` rejects exactly when some member rejects and resolves exactly when all do |
| Exec.All | src/lib/n2/k8s.js:728-730 | every item is launched, and the combined outcome follows the members' outcomes |
| Exec.AllThen | src/lib/n2/k8s.js:655-656 | after `Promise.all`, the next item starts exactly when every member resolved |
| Exec.AllOrPending | src/lib/n2/k8s.js:492-500 | every item starts; the outer promise resolves exactly when every item resolves and never rejects, because a rejection of `Promise.all` is not passed on |
| Exec.Staged | src/lib/n2/k8s.js:648-656 | a chain, then `Promise.all`, then one more item: a stage whose predecessor did not resolve does not start; once the chain resolved every item starts, and the last item starts exactly when every item resolved |
| Exec.ChainUnique | src/lib/n2/k8s.js:703-715 | any trace with the chain's prefix, resolution and stopping properties is the chain's trace |
| Exec.ChainReachesLast | src/lib/n2/k8s.js:611-615 | an item appended to a chain, such as the final status store, starts exactly when every item before it resolved |
| Exec.ChainAppend | src/lib/n2/k8s.js:359-366 | nesting one chain after another is the same as chaining the concatenated list |
| Exec.RunSequentially | src/lib/n2/k8s.js:705-715 | the shift-and-recurse executor starts a prefix of the list and stops at the first item that does not resolve |
| Exec.Compute | src/lib/n2/k8s.js:147-153 | every provider command starts with `gcloud compute -q ` and ends with the sub-command |
| Exec.ComputePlain | src/lib/n2/k8s.js:147-153 | a sub-command without ` deleteDISABLED ` gets an empty verbosity slot |
| Text.StripLineBreak | src/lib/n2/k8s.js:141 | the captured output loses at most one trailing `\n` or `\r\n`, and output without a trailing `\n` is unchanged |
| Text.StripLineBreakInverse | src/lib/n2/k8s.js:141 | appending `\r\n`, or a `\n` not preceded by `\r`, and stripping gives the output back |
| Text.ParseNatToString | src/lib/n2/k8s.js:247 | the decimal rendering of an ordinal parses back to the ordinal |
| Text.NatToStringInjective | src/lib/n2/k8s.js:247 | distinct ordinals render to distinct digit strings |
| Text.FirstMatchFinds | src/lib/n2/k8s.js:472 | a string-pattern `replace` acts at the leftmost occurrence |
| Pki.NotWorkerName | src/lib/n2/k8s.js:406 | character fact the request lemmas use: a name with no `w` is not classed as a worker |
| Pki.NotKubeName | src/lib/n2/k8s.js:429 | character fact the request lemmas use: a name lacking `k` or `-` is not classed as a kube component |
| Pki.FixedSubjectClasses | src/lib/n2/k8s.js:406-430 | of the seven fixed subjects only the three `kube-` components match `kube-`, and none matches `worker` |
| Pki.CommonNameRule | src/lib/n2/k8s.js:426-430 | spells out the definition case by case: CN is `system:node:<cn>` for worker names, else `system:<cn>` for `kube-` names, else the upper-cased app for `ca`, else the name itself |
| Pki.CommonNameIdentifiesSubject | src/lib/n2/k8s.js:426-430 | the subject name can be read back from its CN, so distinct subjects get distinct CNs |
| Pki.OrganizationRule | src/lib/n2/k8s.js:409-425 | spells out the definition case by case: O is `system:nodes` for worker names, the upper-cased app for `ca` and `service-account`, the table entry when there is one, else the configured O; the other subject fields are copied |
| Pki.RequestShape | src/lib/n2/k8s.js:431-438 | spells out the definition: a request has one subject entry, a 2048-bit RSA key, and the configured country and locality |
| Pki.KubeProxyRequest | src/lib/n2/k8s.js:409-438 | the `kube-proxy` request is `system:kube-proxy` in `system:node-proxier` |
| Pki.ControllerManagerRequest | src/lib/n2/k8s.js:409-438 | the controller manager request is `system:kube-controller-manager` in the group of the same name |
| Pki.SchedulerRequest | src/lib/n2/k8s.js:409-438 | the scheduler request is `system:kube-scheduler` in the group of the same name |
| Pki.AdminRequest | src/lib/n2/k8s.js:409-438 | the admin request is `admin` in `system:masters` |
| Pki.KubernetesRequest | src/lib/n2/k8s.js:409-438 | the API server request is `kubernetes` with the configured subject unchanged |
| Pki.CaRequest | src/lib/n2/k8s.js:409-438 | the CA request has the upper-cased app as both CN and O (`N2` by default) |
| Pki.ServiceAccountRequest | src/lib/n2/k8s.js:409-438 | the service-account request keeps its name as CN, with the upper-cased app as O |
| Pki.WorkerRequest | src/lib/n2/k8s.js:409-438 | a worker request is `system:node:<w>` in `system:nodes` |
| Pki.ControllerHosts | src/lib/n2/k8s.js:400-404 | each controller contributes its name, public address and private address, in that order |
| Pki.FlagList | src/lib/n2/k8s.js:439-450 | `ca` gets only `-initca`; every other subject gets the CA pair, and a third flag only as the joined host list |
| Pki.FlagRule | src/lib/n2/k8s.js:396-408 | among non-CA subjects, exactly `kubernetes` gets a `-hostname` flag; workers get only the CA pair |
| Pki.KubernetesHostnames | src/lib/n2/k8s.js:397-405 | the API server's host list is the API address, `127.0.0.1`, `kubernetes.default`, then name, public and private address of each controller |
| Pki.CsrBesidePair | src/lib/n2/k8s.js:451-452 | the request file sits beside the certificate and key, named `<prefix>-csr.json` |
| Pki.ReplaceCsrSuffix | src/lib/n2/k8s.js:472-473 | replacing the first `-csr.json` of a dot-free path swaps the suffix for `.csr` |
| Pki.CsrLeftoverIsBundleCsr | src/lib/n2/k8s.js:471-475 | the second unlink removes `<prefix>.csr`, the file cfssljson leaves beside the pair |
| Pki.CreateCertificates | src/lib/n2/k8s.js:480-501 | every subject is launched at once; the step resolves exactly when every subject's issuance resolves, and never rejects |
| Pki.IssuanceIgnoresUnlinkErrors | src/lib/n2/k8s.js:470-475 | an unlink's error never changes an issuance: only whether each unlink calls back matters |
| Pki.Issue | src/lib/n2/k8s.js:459-476 | the request write, cfssl, cfssljson and the two unlinks run in turn; only a failed write rejects; the issuance resolves exactly when the write and both commands resolve and both unlinks call back, and then all five started; a command that throws or an unlink that never calls back leaves it unsettled |
| Pki.Certificate | src/lib/n2/k8s.js:386-477 | `create_certificate(cn)` writes that subject's request first; only a failed write rejects it, and it resolves exactly when the write, cfssl and cfssljson resolve and both unlinks call back, having then started all five steps |
| Pki.ThrowingCfsslNeverSettles | src/lib/n2/k8s.js:461-476 | a cfssl call that throws after the request was written leaves the issuance unsettled, and nothing after it starts |
| Contexts.ServerRule | src/lib/n2/k8s.js:737-741 | the server is loopback for the local control-plane names, otherwise the API forwarding address, printed as `null` when absent |
| Contexts.FixedServerClasses | src/lib/n2/k8s.js:741 | the controller manager, scheduler and admin are local; `kube-proxy` is not |
| Contexts.CredentialsAreIssuedPair | src/lib/n2/k8s.js:744-745 | a context's client certificate and key are the pair issued for its name, or the admin pair when the name is the app |
| Contexts.UserIsCommonName | src/lib/n2/k8s.js:750 | a context's user is the CN of the certificate issued for its name |
| Contexts.WorkerKubeconfig | src/lib/n2/k8s.js:752 | a worker's kubeconfig is `files/<w>/<w>.kubeconfig`, beside its certificate |
| Contexts.KubeconfigPathInjective | src/lib/n2/k8s.js:752 | distinct names other than the app write distinct kubeconfig files |
| Contexts.ContextEffects | src/lib/n2/k8s.js:755-763 | a context runs exactly its five kubectl commands, in order |
| Contexts.CreateContext | src/lib/n2/k8s.js:755-763 | the five commands run in turn, each after every earlier one resolved; a resolved context ran all five, and otherwise the context ends with the outcome of the first that did not resolve |
| Contexts.CreateContexts | src/lib/n2/k8s.js:719-731 | all contexts start at once; the step resolves exactly when every context does and rejects exactly when one rejects |
| Contexts.ContextCommandsTarget | src/lib/n2/k8s.js:752-763 | every command carries the name's `--kubeconfig` flag, and the app's context has none |
| Contexts.ContextCommandsOrder | src/lib/n2/k8s.js:755-763 | set-cluster, set-credentials, set-cluster again, set-context, use-context |
| Contexts.CredentialsNameTheUser | src/lib/n2/k8s.js:756-758 | the credentials command and the context both name the CN as user |
| Contexts.CredentialOptsText | src/lib/n2/k8s.js:742-746 | the credentials flags name the issued certificate and key and embed them |
| Contexts.ContextStopsAtFailure | src/lib/n2/k8s.js:755-763 | a command `k` whose promise does not resolve stops the context after at most `k + 1` commands |
| Render.TemplatePath | src/lib/n2/k8s.js:127 | the template is `ejs/<file>.ejs`, with the file name recoverable from it |
| Render.StripEjs | src/lib/n2/k8s.js:125 | the global `ejs` removal never lengthens a name |
| Render.OutputPath | src/lib/n2/k8s.js:123-125 | output goes under `files/`, to the explicit name when one is given |
| Render.StripEjsPlain | src/lib/n2/k8s.js:125 | a name with no `ejs` in it is unchanged by the removal |
| Render.StripEjsSuffix | src/lib/n2/k8s.js:125 | removing from `<f>.ejs` gives back `f` when `f` has no `ejs` |
| Render.ExplicitOutput | src/lib/n2/k8s.js:123-125 | an explicit output name is written as `files/<name>` |
| Render.DefaultOutputPath | src/lib/n2/k8s.js:122-132 | without an explicit output, `f` renders from `ejs/f.ejs` to `files/f` |
| Bootstrap.MakeToken | src/lib/n2/k8s.js:875-878 | the id and secret keep their lengths, are lower case, and the key is `<id>.<secret>` |
| Bootstrap.TokenKeyRoundTrip | src/lib/n2/k8s.js:877 | the key splits at its first dot back into id and secret |
| Bootstrap.LineEnd | src/lib/n2/k8s.js:884 | finds the end of the current line under the JavaScript line-terminator set |
| Bootstrap.LastDotBefore | src/lib/n2/k8s.js:884 | finds the last dot before a bound, which is what the greedy `.+` backs off to |
| Bootstrap.MatchFrom | src/lib/n2/k8s.js:884 | `/\..+\./` matches leftmost and then longest, and reports no match exactly when there is none |
| Bootstrap.Detach | src/lib/n2/k8s.js:884 | a signature with no match is left as it is |
| Bootstrap.DetachCompact | src/lib/n2/k8s.js:879-884 | a compact token `h.p.s` loses its payload and becomes `h..s` |
| Bootstrap.Indent | src/lib/n2/k8s.js:903 | indenting never shortens the text and leaves single-line text unchanged |
| Bootstrap.UnindentIndent | src/lib/n2/k8s.js:903 | the indentation can be undone exactly |
| Bootstrap.IndentedLines | src/lib/n2/k8s.js:903 | every newline of the embedded kubeconfig is followed by four spaces |
| Bootstrap.Configmap | src/lib/n2/k8s.js:899-905 | the configmap carries the token, the kubeconfig it embeds unindents to the one read, and the signature is the detached form of the signed token, so an unmatched signature is kept |
| Bootstrap.BootstrapEffects | src/lib/n2/k8s.js:886-910 | five steps: secret render, kubeconfig read, configmap render, kubelet bootstrap render, shared bootstrappers render |
| Bootstrap.BootstrapOutputs | src/lib/n2/k8s.js:887-909 | the secret goes to `files/bootstrap_secret-<w>.yaml` and the kubelet bootstrap to `files/<w>/kubelet-bootstrap.kubeconfig` |
| Bootstrap.CreateBootstrap | src/lib/n2/k8s.js:886-912 | the five steps run in turn, each after every earlier one resolved; a resolved bootstrap ran all five, otherwise it ends with the outcome of the first that did not resolve; a failed read stops it after the second |
| Bootstrap.BootstrapReadsContextFile | src/lib/n2/k8s.js:897-898 | a worker's bootstrap reads the kubeconfig its `create_context` wrote |
| Bootstrap.RenamedWorkerKubeconfigMismatch | src/lib/n2/k8s.js:897-898 | with worker prefix `node`, the context writes `files/node-1.kubeconfig` while the bootstrap reads `files/node-1/node-1.kubeconfig` |
| Bootstrap.BootstrappersShared | src/lib/n2/k8s.js:910 | every worker's bootstrap renders the same `files/bootstrappers.yaml`, which is what `renderFile` does with no output name |
| Provision.CreateNetwork | src/lib/n2/k8s.js:504-509 | one provider command, and the step settles as it does |
| Provision.RuleSubcommands | src/lib/n2/k8s.js:512-615 | five live commands; the disabled `0 && …` steps contribute nothing |
| Provision.CreateRules | src/lib/n2/k8s.js:512-621 | the five commands and the status write run in turn, each only after every earlier one resolved; a resolved step ran all six, and otherwise it ends with the outcome of the first that did not resolve |
| Provision.RulesThenStatus | src/lib/n2/k8s.js:512-621 | the status is stored exactly when all five rule commands resolved |
| Provision.FirewallPorts | src/lib/n2/k8s.js:518-519 | the firewall opens ssh, health, api, etcd peer and etcd client ports, in that order |
| Provision.WorkerCreates | src/lib/n2/k8s.js:653-654 | one creation command per worker, with ordinal index + 1 |
| Provision.CreateInstances | src/lib/n2/k8s.js:623-658 | controllers are created, then pooled; once both resolved every worker creation starts, and the status write starts exactly when all of them resolved; the step resolves exactly when all of these do |
| Provision.PodCidrInjective | src/lib/n2/k8s.js:632-634 | the pod range text determines the ordinal |
| Provision.WorkerPodCidrs | src/lib/n2/k8s.js:632-634 | worker `i` carries `--metadata pod-cidr=10.200.<i+1>.0/24`, and distinct workers get distinct ranges |
| Provision.DownSubcommands | src/lib/n2/k8s.js:669-702 | exactly eighteen delete commands |
| Provision.TeardownShape | src/lib/n2/k8s.js:675-702 | spells out the list: the fifteenth deletes the topology's instances and the last deletes the network |
| Provision.Teardown | src/lib/n2/k8s.js:703-715 | deletions run one at a time, each after every earlier one resolved; a resolved teardown issued all eighteen, otherwise it ends with the outcome of the first that did not resolve, after at most `k + 1` commands when command `k` did not; the network goes last |
| Provision.RunTeardown | src/lib/n2/k8s.js:703-715 | the shift-and-recurse executor starts and settles exactly as the chain |
| Provision.InstanceRenders | src/lib/n2/k8s.js:770-778 | each file of the role renders from `ejs/<file>.ejs` to `files/<instance>/<file>` |
| Provision.RoleRenders | src/lib/n2/k8s.js:779-780 | a role issues one render per instance and file |
| Provision.RoleRendersHave | src/lib/n2/k8s.js:779-780 | every file of the role is rendered into every instance's directory |
| Provision.ConfigurationRendersCover | src/lib/n2/k8s.js:766-790 | every controller file reaches every controller's directory, and every worker file every worker's |
| Provision.CreateConfigurations | src/lib/n2/k8s.js:766-792 | store, renders, contexts and bootstraps run in turn, each after every earlier stage resolved; a resolved step ran all four, otherwise it ends with the outcome of the first stage that did not resolve; the bootstraps start only after every render and every context resolved |
| Provision.ControllerUploads | src/lib/n2/k8s.js:816-826 | twelve uploads per controller |
| Provision.WorkerUploads | src/lib/n2/k8s.js:829-832 | four uploads per worker |
| Provision.CertUploadsAreIssued | src/lib/n2/k8s.js:819-820 | an uploaded certificate pair is the pair issued for that name |
| Provision.KubeconfigUploadIsWritten | src/lib/n2/k8s.js:821-822 | an uploaded kubeconfig is the one the context for that name wrote |
| Provision.ControllerUploadsAreIssued | src/lib/n2/k8s.js:816-826 | a controller receives the CA, API server and service-account pairs and the controller manager, scheduler and admin kubeconfigs that were written |
| Provision.WorkerUploadsAreIssued | src/lib/n2/k8s.js:829-832 | a worker receives its bootstrap kubeconfig, the `kube-proxy` kubeconfig and the CA certificate that were written |
| Provision.SecretGlobMatch | src/lib/n2/k8s.js:823-824 | the controllers' secret glob picks up a worker's secret exactly when the worker's name starts with `worker` |
| Provision.DistributeSubcommands | src/lib/n2/k8s.js:811-834 | one `scp` per instance, controllers first |
| Provision.Distribute | src/lib/n2/k8s.js:811-836 | every upload starts at once, and the step resolves exactly when all do |
| Provision.UpdateSubcommands | src/lib/n2/k8s.js:843-852 | each instance runs its role's script over ssh, controllers first |
| Provision.UpdateOs | src/lib/n2/k8s.js:843-854 | every instance's ssh script starts at once, controllers first; the step rejects exactly when one rejects and resolves exactly when all resolve |
| Pipeline.ParseComponentName | src/lib/n2/k8s.js:336-349 | each component's plural name selects that component |
| Pipeline.ParseIgnoresCase | src/lib/n2/k8s.js:336-349 | the dispatch ignores ASCII case |
| Pipeline.CertificatesNeedTheWholeWord | src/lib/n2/k8s.js:336 | `certificates` selects the certificates, while `cert` and `certs` select nothing |
| Pipeline.CreateStoresFirst | src/lib/n2/k8s.js:334-335 | every `create` first refreshes and stores the status, and nothing else starts if that fails |
| Pipeline.UnknownTypeDoesNothing | src/lib/n2/k8s.js:334-351 | an unmatched type resolves as the status store does and builds nothing |
| Pipeline.EncryptionRejects | src/lib/n2/k8s.js:345-346 | an encryption request never resolves, and rejects once the status is stored |
| Pipeline.UpOrder | src/lib/n2/k8s.js:359-366 | certificates start only after network, rules, instances and a fresh status store resolved |
| Pipeline.ConfigurationsAfterCertificates | src/lib/n2/k8s.js:359-366 | configurations start only after the certificates step resolved |
| Pipeline.StartComposes | src/lib/n2/k8s.js:318-322 | `start` is `create` followed, only on success, by distribution and update |
| Pipeline.ResetTearsDownFirst | src/lib/n2/k8s.js:795-797 | `reset` starts nothing else unless the teardown resolved |

## Left out

- Process and file effects are opaque: shell commands, file writes, reads, unlinks, `mkdir`, `scp` and `ssh`. The behaviour of gcloud, kubectl, cfssl and cfssljson is outside the model. Each effect's outcome comes from an oracle.
- The text of a rendered or written file is not modelled, only its path: JSON encoding, EJS rendering, the status file's content and the request document's serialisation.
- Concurrency interleavings are not modelled. `Promise.all` is modelled by which members start and how their outcomes combine.
- The fetch sub-commands (`computeJSON`, `fetchNetwork`, `fetchSubnet`, `fetchForwarding`) are not modelled. A fetch is the `Probe` record the provider returns.
- Randomness and cryptography are parameters: the random token strings and the signed JWS token. HS256 is not modelled.
- `renderVars`, `render`, `randomBase64`, `instanceMetadata`, `instanceCIDR`, `nodeIps`, `display` and the console output are not modelled. They feed unseen templates or only print.
- `mkdirs`, `readFile` and `copyFile` are left out. Directory creation is a side effect the model does not track; a read is an effect.
- `src/index.js` (the command-line wiring) and the `options` function of `config/default.js` are not part of this model.
- Pipeline.StepSettle: assumes the provider answers every status fetch within one action with the same `Probe`. The configurations step therefore sees the snapshot of the forced refresh before it.
- Exec.Settle: the oracle maps an effect's value to its outcome, so identical effects within one action share one outcome. Repeated effects therefore cannot settle differently: a context's second `set-cluster` (k8s.js:755 and 760) cannot fail after the first succeeded, `create('')` cannot stop at its second `storeStatus(true)` (k8s.js:335 and 363), and the `files/status.json` write shared by `create_rules`, `create_instances`, `storeStatus` and `create_configurations`, like every worker's `files/bootstrappers.yaml` render (k8s.js:910), has one outcome for the whole action. Keying the oracle by position is not modelled.
- Provision.LabelConf: uses the role word directly. The source derives it from `match('controller')` on the literal role word it passes, which gives the same result.
- Text.Lower: maps ASCII letters only. Case-insensitive matching against the ASCII patterns used here is unaffected.
- Text.Upper: maps ASCII letters only, while `toUpperCase` applies the full Unicode mapping. It produces the CA's CN and the O of `ca` and `service-account`, so for an application name with non-ASCII letters the model's subject differs; JavaScript turns `ß` into `SS`, which also changes the length.
- A `Run` effect resolves whatever the command's exit status: `exec` returns the captured output even when gcloud, kubectl or cfssl exits non-zero, and rejects only when the shell call itself throws. A chain therefore stops only at a command whose promise does not resolve, not at a failed command.
- Cloud.SubnetCidr and Cloud.ForwardingIP require a present snapshot. On a null snapshot both throw a type error: the `{cloud={}}` default does not replace null. So do their callers `Pki.KubernetesHosts` and `Contexts.Server`, which `create_context` evaluates eagerly, and `Pki.Certificate`, since `create_certificate` logs `forwardingIP('api')` first. The model leaves that path out because every call runs after `storeStatus` installs a snapshot.
- Cloud.Rule: an `IPAddress` that is undefined and one that is null are both `None`. A template prints the first as `undefined` and the second as `null`; the model renders both as `null`.
- Provision.CreateInstances: ends in `.then(_ => true)`, so only the outcome is modelled, not the resolved value.

=== FILE: bootstrap.dfy ===
/** Worker bootstrap material (`create_bootstrap`): the bootstrap token,
    the detached form of a signed JWS compact token (the payload segment
    removed, as in Appendix F of RFC 7515), the indentation of the embedded
    kubeconfig, and the files rendered for one worker. The random strings
    and the signed token are parameters: HS256 signing and random
    generation are outside the model. */
module Bootstrap {
  import opened Text
  import opened Cluster
  import opened Exec
  import opened Pki
  import opened Contexts
  import opened Render

  // ---------------------------------------------------------------------
  // Token

  datatype Token = Token(id: string, secret: string, key: string)

  predicate IsAlphanumeric(s: string) {
    forall i :: 0 <= i < |s| ==> ('0' <= s[i] <= '9' || 'a' <= s[i] <= 'z' || 'A' <= s[i] <= 'Z')
  }

  predicate HasNoUpper(s: string) {
    forall i :: 0 <= i < |s| ==> !('A' <= s[i] <= 'Z')
  }

  /** The token built from a 6-character and a 16-character random string:
      both lowercased, the key joining them with a dot. */
  function MakeToken(r6: string, r16: string): (t: Token)
    ensures |t.id| == |r6| && |t.secret| == |r16|
    ensures HasNoUpper(t.id) && HasNoUpper(t.secret)
    ensures t.key == t.id + "." + t.secret
  {
    var id := Lower(r6);
    var secret := Lower(r16);
    Token(id, secret, id + "." + secret)
  }

  /** The position of the first `.` at or after `from`. */
  function FirstDot(s: string, from: nat): (r: Option<nat>)
    ensures r.Some? ==> from <= r.value < |s| && s[r.value] == '.'
                        && forall k :: from <= k < r.value ==> s[k] != '.'
    ensures r.None? ==> forall k :: from <= k < |s| ==> s[k] != '.'
    decreases |s| - from
  {
    if from >= |s| then None
    else if s[from] == '.' then Some(from)
    else FirstDot(s, from + 1)
  }

  /** Reads a token key back into its id and secret, splitting at the
      first dot. */
  function SplitKey(key: string): Option<(string, string)> {
    match FirstDot(key, 0)
    case None => None
    case Some(k) => Some((key[..k], key[k + 1..]))
  }

  /** The key determines the id and the secret: for alphanumeric random
      strings the id holds no dot, so the first dot of the key is the
      separator. */
  lemma TokenKeyRoundTrip(r6: string, r16: string)
    requires IsAlphanumeric(r6)
    ensures var t := MakeToken(r6, r16);
            SplitKey(t.key) == Some((t.id, t.secret))
  {
    var t := MakeToken(r6, r16);
    assert forall k :: 0 <= k < |t.id| ==> t.key[k] == t.id[k] && t.id[k] == LowerChar(r6[k]);
    assert t.key[|t.id|] == '.';
    assert t.key[..|t.id|] == t.id;
    assert t.key[|t.id| + 1..] == t.secret;
  }

  // ---------------------------------------------------------------------
  // Detached signature

  /** The characters a regular-expression `.` does not match. */
  predicate IsLineTerminator(c: char) {
    c == '\n' || c == '\r' || c == '\U{2028}' || c == '\U{2029}'
  }

  /** `/\..+\./` matches `s[i..j + 1]`: a dot, at least one character other
      than a line terminator, and a dot. */
  predicate DetachMatch(s: string, i: int, j: int) {
    0 <= i && i + 2 <= j < |s| && s[i] == '.' && s[j] == '.'
    && forall k :: i < k < j ==> !IsLineTerminator(s[k])
  }

  /** The first line terminator at or after `from`, or the end. */
  function LineEnd(s: string, from: nat): (r: nat)
    requires from <= |s|
    ensures from <= r <= |s|
    ensures forall k :: from <= k < r ==> !IsLineTerminator(s[k])
    ensures r < |s| ==> IsLineTerminator(s[r])
    decreases |s| - from
  {
    if from == |s| || IsLineTerminator(s[from]) then from else LineEnd(s, from + 1)
  }

  /** The last `.` in `s[lo..hi]`. */
  function LastDotBefore(s: string, lo: nat, hi: nat): (r: Option<nat>)
    requires hi <= |s|
    ensures r.Some? ==> lo <= r.value < hi && s[r.value] == '.'
                        && forall k :: r.value < k < hi ==> s[k] != '.'
    ensures r.None? ==> forall k :: lo <= k < hi ==> s[k] != '.'
    decreases hi
  {
    if hi <= lo then None
    else if s[hi - 1] == '.' then Some(hi - 1)
    else LastDotBefore(s, lo, hi - 1)
  }

  /** The regular expression's match: the leftmost starting dot at or
      after `from` that has a match, with the greedy (furthest) closing
      dot. */
  function MatchFrom(s: string, from: nat): (r: Option<(nat, nat)>)
    ensures r.Some? ==> from <= r.value.0 && DetachMatch(s, r.value.0, r.value.1)
    ensures r.Some? ==> forall i, j :: from <= i < r.value.0 ==> !DetachMatch(s, i, j)
    ensures r.Some? ==> forall j :: r.value.1 < j ==> !DetachMatch(s, r.value.0, j)
    ensures r.None? ==> forall i, j :: from <= i ==> !DetachMatch(s, i, j)
    decreases |s| - from
  {
    if from + 2 >= |s| then None
    else
      var rest := MatchFrom(s, from + 1);
      if s[from] != '.' then rest
      else
        var e := LineEnd(s, from + 1);
        match LastDotBefore(s, from + 2, e)
        case Some(j) => Some((from, j))
        case None => rest
  }

  /** `signature.replace(/\..+\./, '..')`: the first match, if any, is
      replaced by two dots. */
  function Detach(s: string): (r: string)
    ensures MatchFrom(s, 0).None? ==> r == s
  {
    match MatchFrom(s, 0)
    case None => s
    case Some((i, j)) => s[..i] + ".." + s[j + 1..]
  }

  /** A compact token `header.payload.signature` loses its payload: what
      remains is `header..signature`. A token whose payload is already
      empty comes back unchanged. */
  lemma DetachCompact(h: string, p: string, sig: string)
    requires NoDot(h) && NoDot(p) && NoDot(sig)
    requires forall k :: 0 <= k < |p| ==> !IsLineTerminator(p[k])
    ensures Detach(h + "." + p + "." + sig) == h + ".." + sig
  {
    var s := h + "." + p + "." + sig;
    var a, b := |h|, |h| + |p| + 1;
    assert s[a] == '.' && s[b] == '.';
    assert forall k :: 0 <= k < |s| && k != a && k != b ==> s[k] != '.' by {
      forall k | 0 <= k < |s| && k != a && k != b
        ensures s[k] != '.'
      {
        if k < a {
          assert s[k] == h[k];
        } else if k < b {
          assert s[k] == p[k - a - 1];
        } else {
          assert s[k] == sig[k - b - 1];
        }
      }
    }
    if |p| == 0 {
      assert s == h + ".." + sig;
    } else {
      assert forall k :: a < k < b ==> s[k] == p[k - a - 1];
      assert DetachMatch(s, a, b);
      var m := MatchFrom(s, 0);
      assert m == Some((a, b));
      assert s[..a] == h;
      assert s[b + 1..] == sig;
    }
  }

  // ---------------------------------------------------------------------
  // Indentation

  /** `kubeconfig.replace(/\n/gm, "\n    ")`: four spaces after every line
      feed. */
  function Indent(s: string): (r: string)
    ensures |r| >= |s|
    ensures '\n' !in s ==> r == s
    decreases |s|
  {
    if |s| == 0 then ""
    else (if s[0] == '\n' then "\n    " else [s[0]]) + Indent(s[1..])
  }

  /** Reading an embedded kubeconfig back: each line feed drops the four
      spaces after it. */
  function Unindent(s: string): string
    decreases |s|
  {
    if |s| == 0 then ""
    else if StartsWith(s, "\n    ") then "\n" + Unindent(s[5..])
    else [s[0]] + Unindent(s[1..])
  }

  /** The indentation loses nothing: taking the four spaces out again gives
      back the original text. */
  lemma {:induction false} UnindentIndent(s: string)
    ensures Unindent(Indent(s)) == s
    decreases |s|
  {
    if |s| > 0 {
      var r := Indent(s);
      UnindentIndent(s[1..]);
      if s[0] == '\n' {
        assert r == "\n    " + Indent(s[1..]);
        assert r[..5] == "\n    ";
        assert r[5..] == Indent(s[1..]);
      } else {
        assert r == [s[0]] + Indent(s[1..]);
        assert r[1..] == Indent(s[1..]);
        assert !StartsWith(r, "\n    ") by {
          assert r[0] == s[0];
        }
      }
      assert [s[0]] + s[1..] == s;
    }
  }

  /** In the indented text every line feed is followed by four spaces. */
  lemma {:induction false} IndentedLines(s: string, i: nat)
    requires i < |Indent(s)| && Indent(s)[i] == '\n'
    ensures i + 5 <= |Indent(s)| && Indent(s)[i + 1..i + 5] == "    "
    decreases |s|
  {
    var r := Indent(s);
    var head := if s[0] == '\n' then "\n    " else [s[0]];
    assert r == head + Indent(s[1..]);
    if i >= |head| {
      assert Indent(s[1..])[i - |head|] == '\n';
      IndentedLines(s[1..], i - |head|);
      assert r[i + 1..i + 5] == Indent(s[1..])[i - |head| + 1..i - |head| + 5];
    } else {
      assert r[..5] == "\n    ";
    }
  }

  // ---------------------------------------------------------------------
  // Files

  /** The values the configmap template receives. */
  datatype ConfigmapData = ConfigmapData(token: Token, signature: string, kubeconfig: string)

  /** The configmap's data: the token, the detached signature over the
      worker's kubeconfig and the indented kubeconfig itself. */
  function Configmap(t: Token, signed: string, kubeconfig: string): (d: ConfigmapData)
    ensures d.token == t
    ensures Unindent(d.kubeconfig) == kubeconfig
    ensures d.signature == Detach(signed)
    ensures MatchFrom(signed, 0).None? ==> d.signature == signed
  {
    UnindentIndent(kubeconfig);
    ConfigmapData(t, Detach(signed), Indent(kubeconfig))
  }

  /** The worker's own kubeconfig, which the configmap embeds. */
  function WorkerKubeconfigPath(w: string): string {
    "files/" + w + "/" + w + ".kubeconfig"
  }

  /** The cluster-wide bootstrap binding every worker renders. */
  const Bootstrappers: string := "bootstrappers.yaml"
  const SecretTemplate: string := "bootstrap_secret.yaml"
  const ConfigmapTemplate: string := "bootstrap_configmap.yaml"
  const KubeletBootstrap: string := "kubelet-bootstrap.kubeconfig"
  const SecretPrefix: string := "bootstrap_secret-"

  /** The effects of `create_bootstrap(w)`, in order. */
  function BootstrapEffects(w: string): (fx: seq<Effect>)
    ensures |fx| == 5
    ensures fx[1] == Read(WorkerKubeconfigPath(w))
    ensures fx[0].Render? && fx[2].Render? && fx[3].Render? && fx[4].Render?
  {
    var secret := RenderFile(SecretTemplate, SecretPrefix + w + ".yaml");
    var configmap := RenderFile(ConfigmapTemplate, "bootstrap_configmap-" + w + ".yaml");
    var kubelet := RenderFile(KubeletBootstrap, w + "/" + KubeletBootstrap);
    // `renderFile(Bootstrappers)` with no output name; `BootstrappersShared`
    // shows this is the render it performs.
    var shared := Render(TemplatePath(Bootstrappers), "files/" + Bootstrappers);
    [secret, Read(WorkerKubeconfigPath(w)), configmap, kubelet, shared]
  }

  /** The worker's secret and its bootstrap kubeconfig are written under
      the names given. */
  lemma BootstrapOutputs(w: string)
    ensures BootstrapEffects(w)[0].output == "files/" + (SecretPrefix + w + ".yaml")
    ensures BootstrapEffects(w)[3].output == "files/" + (w + "/" + KubeletBootstrap)
  {
    ExplicitOutput(SecretTemplate, SecretPrefix + w + ".yaml");
    ExplicitOutput(KubeletBootstrap, w + "/" + KubeletBootstrap);
  }

  /** `create_bootstrap(w)`: one `.then` chain. */
  function CreateBootstrap(w: string, fx: Effect -> Settle): (r: Trace<Effect>)
    ensures r.started <= BootstrapEffects(w)
    ensures r.outcome == Resolved <==> forall i :: 0 <= i < 5 ==> fx(BootstrapEffects(w)[i]) == Resolved
    ensures fx(Read(WorkerKubeconfigPath(w))) != Resolved ==> r.outcome != Resolved && |r.started| <= 2
    ensures r.outcome == Resolved ==> r.started == BootstrapEffects(w)
    ensures r.outcome != Resolved ==> 0 < |r.started| && fx(r.started[|r.started| - 1]) == r.outcome
    ensures forall i :: 0 <= i < |r.started| - 1 ==> fx(r.started[i]) == Resolved
  {
    Chain(BootstrapEffects(w), fx)
  }

  /** A worker whose name contains `worker` (and is not the application's
      name) has its kubeconfig written by `create_context` at exactly the
      path the bootstrap reads. */
  lemma BootstrapReadsContextFile(c: Config, w: string)
    requires IsWorkerName(w) && w != c.app
    ensures KubeconfigPath(c.app, w) == Some(WorkerKubeconfigPath(w))
  {
    WorkerKubeconfig(c.app, w);
  }

  /** With a worker prefix that does not contain `worker`, the context is
      written to `files/<w>.kubeconfig` while the bootstrap reads
      `files/<w>/<w>.kubeconfig`: the read finds no file of the context. */
  lemma RenamedWorkerKubeconfigMismatch()
    ensures var c := DefaultConfig().(workers := RoleConfig("node", 1));
            && Workers(c) == ["node-1"]
            && KubeconfigPath(c.app, "node-1") == Some("files/node-1.kubeconfig")
            && WorkerKubeconfigPath("node-1") == "files/node-1/node-1.kubeconfig"
            && KubeconfigPath(c.app, "node-1") != Some(WorkerKubeconfigPath("node-1"))
  {
    var c := DefaultConfig().(workers := RoleConfig("node", 1));
    assert NatToString(1) == "1";
    assert Workers(c)[0] == "node-1";
    NotWorkerName("node-1");
    assert KubeconfigStem("node-1") == "node-1";
    assert "files/" + "node-1" + ".kubeconfig" == "files/node-1.kubeconfig";
    assert |"files/node-1.kubeconfig"| != |WorkerKubeconfigPath("node-1")|;
  }

  /** Every worker's bootstrap ends by rendering the same shared file,
      `files/bootstrappers.yaml`. */
  lemma BootstrappersShared(w1: string, w2: string)
    ensures BootstrapEffects(w1)[4] == BootstrapEffects(w2)[4]
    ensures BootstrapEffects(w1)[4] == Render("ejs/" + Bootstrappers + ".ejs", "files/" + Bootstrappers)
    ensures BootstrapEffects(w1)[4] == RenderFile(Bootstrappers, "")
  {
    NoJ(Bootstrappers);
    DefaultOutputPath(Bootstrappers);
  }
}

=== FILE: cloud.dfy ===
/** The cluster state cache: the provider's descriptors as already-parsed
    records, the snapshot built from one round of probes, the address
    lookups over it, and the `status`/`storeStatus` cache state machine. */
module Cloud {
  import opened Text
  import opened Cluster

  datatype AccessConfig = AccessConfig(natIP: Option<string>)

  datatype NetworkInterface = NetworkInterface(
    networkIP: Option<string>,
    accessConfigs: Option<seq<AccessConfig>>)

  /** An instance descriptor; `name` is the descriptor's own name field. */
  datatype Instance = Instance(name: string, networkInterfaces: Option<seq<NetworkInterface>>)

  datatype Network = Network(name: string)

  datatype Subnet = Subnet(ipCidrRange: Option<string>)

  datatype Rule = Rule(IPAddress: Option<string>)

  datatype Forwarding = Forwarding(api: Option<Rule>, health: Option<Rule>)

  /** `this.cloud`. The orchestrator starts with every field null; after a
      fetch `instances` and `forwarding` are always present. */
  datatype Snapshot = Snapshot(
    network: Option<Network>,
    subnet: Option<Subnet>,
    instances: Option<map<string, Instance>>,
    forwarding: Option<Forwarding>)

  /** The cache: `None` is `this.cloud = null`, which `storeStatus(true)`
      sets before refetching. */
  type Cache = Option<Snapshot>

  /** The value the constructor installs. */
  function Initial(): Cache {
    Some(Snapshot(None, None, None, None))
  }

  /** What one round of provider queries returned: each descriptor, or
      `None` where the describe call failed or found nothing. `instances`
      holds one entry per queried name, in `instanceNames()` order. */
  datatype Probe = Probe(
    network: Option<Network>,
    subnet: Option<Subnet>,
    instances: seq<Option<Instance>>,
    api: Option<Rule>,
    health: Option<Rule>)

  /** `ds[i]` is a found descriptor that calls itself `k`. */
  predicate Found(ds: seq<Option<Instance>>, i: int, k: string) {
    0 <= i < |ds| && ds[i].Some? && ds[i].value.name == k
  }

  /** `ds[i]` is the last found descriptor that calls itself `k`. */
  predicate LastFound(ds: seq<Option<Instance>>, i: int, k: string) {
    Found(ds, i, k) && forall j :: i < j < |ds| ==> !Found(ds, j, k)
  }

  /** `fetchInstances`: fold the found descriptors into a map keyed by each
      descriptor's own name, left to right, so a later descriptor with the
      same name overwrites an earlier one. */
  function IndexByName(ds: seq<Option<Instance>>): map<string, Instance>
    decreases |ds|
  {
    if |ds| == 0 then map[]
    else
      var m := IndexByName(ds[..|ds| - 1]);
      match ds[|ds| - 1]
      case None => m
      case Some(d) => m[d.name := d]
  }

  /** The fold keeps exactly the names some found descriptor carries, each
      mapped to the last descriptor carrying it. */
  lemma {:induction false} IndexByNameSpec(ds: seq<Option<Instance>>)
    ensures forall k :: k in IndexByName(ds) <==> exists i :: Found(ds, i, k)
    ensures forall k :: k in IndexByName(ds) ==>
              exists i :: LastFound(ds, i, k) && ds[i] == Some(IndexByName(ds)[k])
    decreases |ds|
  {
    if |ds| > 0 {
      var n := |ds|;
      var front := ds[..n - 1];
      IndexByNameSpec(front);
      var m := IndexByName(ds);
      var m' := IndexByName(front);
      assert forall i, k :: 0 <= i < n - 1 ==> (Found(front, i, k) <==> Found(ds, i, k));
      forall k | k in m
        ensures exists i :: LastFound(ds, i, k) && ds[i] == Some(m[k])
      {
        if Found(ds, n - 1, k) {
          assert LastFound(ds, n - 1, k);
        } else {
          var i :| LastFound(front, i, k) && front[i] == Some(m'[k]);
          assert LastFound(ds, i, k);
        }
      }
      forall k
        ensures k in m <==> exists i :: Found(ds, i, k)
      {
        if exists i :: Found(ds, i, k) {
          var i :| Found(ds, i, k);
          if i < n - 1 {
            assert Found(front, i, k);
          }
        }
      }
    }
  }

  /** `fetch`: the whole snapshot is rebuilt from the probe; nothing of the
      previous snapshot survives. */
  function Fetch(p: Probe): Snapshot {
    Snapshot(p.network, p.subnet, Some(IndexByName(p.instances)), Some(Forwarding(p.api, p.health)))
  }

  /** `networkInterface(name)`: the first interface of the named instance. */
  function Interface(cache: Cache, name: string): (r: Option<NetworkInterface>)
    ensures r.Some? <==>
              && cache.Some? && cache.value.instances.Some?
              && name in cache.value.instances.value
              && cache.value.instances.value[name].networkInterfaces.Some?
              && |cache.value.instances.value[name].networkInterfaces.value| > 0
  {
    if cache.None? || cache.value.instances.None? then None
    else if name !in cache.value.instances.value then None
    else
      match cache.value.instances.value[name].networkInterfaces
      case None => None
      case Some(ifaces) => if |ifaces| > 0 then Some(ifaces[0]) else None
  }

  /** `publicIP(name)`: the first interface's first access config's NAT
      address; null when the snapshot, instance, interface list or access
      config is missing. */
  function PublicIP(cache: Cache, name: string): (r: Option<string>)
    ensures Interface(cache, name).None? ==> r.None?
    ensures r.Some? ==> Interface(cache, name).value.accessConfigs.Some?
    ensures Interface(cache, name).Some? && Interface(cache, name).value.accessConfigs.Some?
            && |Interface(cache, name).value.accessConfigs.value| > 0
            ==> r == Interface(cache, name).value.accessConfigs.value[0].natIP
  {
    match Interface(cache, name)
    case None => None
    case Some(iface) =>
      match iface.accessConfigs
      case None => None
      case Some(configs) => if |configs| > 0 then configs[0].natIP else None
  }

  /** `privateIP(name)`: the first interface's internal address. */
  function PrivateIP(cache: Cache, name: string): (r: Option<string>)
    ensures Interface(cache, name).None? ==> r.None?
    ensures Interface(cache, name).Some? ==> r == Interface(cache, name).value.networkIP
  {
    match Interface(cache, name)
    case None => None
    case Some(iface) => iface.networkIP
  }

  /** `subnetCidr()`: reads `this.cloud.subnet`, so the snapshot itself must
      be present (the source dereferences it unguarded). */
  function SubnetCidr(cache: Cache): (r: Option<string>)
    requires cache.Some?
    ensures cache.value.subnet.None? ==> r.None?
    ensures cache.value.subnet.Some? ==> r == cache.value.subnet.value.ipCidrRange
  {
    match cache.value.subnet
    case None => None
    case Some(s) => s.ipCidrRange
  }

  /** A forwarding rule's address; a rule the describe call did not find
      (null after its `.catch`) has none. */
  function RuleAddress(rule: Option<Rule>): Option<string> {
    match rule
    case None => None
    case Some(x) => x.IPAddress
  }

  /** `forwardingIP(name)`: the named rule's address. The destructuring
      default covers an undefined snapshot, not a null one, so the snapshot
      must be present; a null `forwarding` or an unknown rule name gives
      null. */
  function ForwardingIP(cache: Cache, name: string): (r: Option<string>)
    requires cache.Some?
    ensures cache.value.forwarding.None? ==> r.None?
    ensures name != "api" && name != "health" ==> r.None?
    ensures cache.value.forwarding.Some? && name == "api" ==>
              r == RuleAddress(cache.value.forwarding.value.api)
    ensures cache.value.forwarding.Some? && name == "health" ==>
              r == RuleAddress(cache.value.forwarding.value.health)
  {
    match cache.value.forwarding
    case None => None
    case Some(f) =>
      RuleAddress(if name == "api" then f.api else if name == "health" then f.health else None)
  }

  /** The public address a descriptor itself reports. */
  function DescriptorPublicIP(d: Instance): Option<string> {
    match d.networkInterfaces
    case None => None
    case Some(ifaces) =>
      if |ifaces| == 0 then None
      else match ifaces[0].accessConfigs
        case None => None
        case Some(cs) => if |cs| == 0 then None else cs[0].natIP
  }

  function DescriptorPrivateIP(d: Instance): Option<string> {
    match d.networkInterfaces
    case None => None
    case Some(ifaces) => if |ifaces| == 0 then None else ifaces[0].networkIP
  }

  /** The provider answered each query with the descriptor of the queried
      instance (or nothing). */
  predicate ProbeMatches(names: seq<string>, p: Probe) {
    |p.instances| == |names|
    && forall i :: 0 <= i < |names| && p.instances[i].Some? ==> p.instances[i].value.name == names[i]
  }

  /** After a fetch whose descriptors are named after the queries, each
      listed name's lookups read that name's own descriptor, and a name the
      provider did not find has no addresses. */
  lemma LookupAfterFetch(names: seq<string>, p: Probe, i: nat)
    requires NoDuplicates(names) && ProbeMatches(names, p) && i < |names|
    ensures p.instances[i].None? ==>
              PublicIP(Some(Fetch(p)), names[i]).None? && PrivateIP(Some(Fetch(p)), names[i]).None?
    ensures p.instances[i].Some? ==>
              PublicIP(Some(Fetch(p)), names[i]) == DescriptorPublicIP(p.instances[i].value)
              && PrivateIP(Some(Fetch(p)), names[i]) == DescriptorPrivateIP(p.instances[i].value)
  {
    var m := IndexByName(p.instances);
    IndexByNameSpec(p.instances);
    if names[i] in m {
      var k :| LastFound(p.instances, k, names[i]) && p.instances[k] == Some(m[names[i]]);
      assert names[k] == names[i];
      assert k == i;
    } else {
      assert !Found(p.instances, i, names[i]);
    }
  }

  /** After a fetch the subnet range and the two forwarding addresses are
      those of the descriptors the provider returned, and absent where the
      describe call found nothing. */
  lemma RuleLookupsAfterFetch(p: Probe, name: string)
    ensures SubnetCidr(Some(Fetch(p))) == (if p.subnet.Some? then p.subnet.value.ipCidrRange else None)
    ensures ForwardingIP(Some(Fetch(p)), "api") == RuleAddress(p.api)
    ensures ForwardingIP(Some(Fetch(p)), "health") == RuleAddress(p.health)
    ensures name != "api" && name != "health" ==> ForwardingIP(Some(Fetch(p)), name).None?
  {
  }

  /** Every lookup answers null on an absent snapshot or, for the snapshot
      dereferencing ones, on a present snapshot missing the piece. */
  lemma LookupsTolerateAbsence(name: string, rule: string)
    ensures PublicIP(None, name).None? && PrivateIP(None, name).None?
    ensures PublicIP(Initial(), name).None? && PrivateIP(Initial(), name).None?
    ensures SubnetCidr(Initial()).None? && ForwardingIP(Initial(), rule).None?
  {
  }

  /** What `status()` did. */
  datatype StatusResult = StatusResult(cache: Cache, snapshot: Snapshot, fetched: bool)

  /** `status()`: the cached snapshot when it exists and has a network,
      otherwise a fresh fetch, which also becomes the cache. */
  function Status(cache: Cache, p: Probe): (r: StatusResult)
    ensures r.cache == Some(r.snapshot)
    ensures r.fetched <==> !(cache.Some? && cache.value.network.Some?)
    ensures r.fetched ==> r.snapshot == Fetch(p)
    ensures !r.fetched ==> r.snapshot == cache.value
  {
    if cache.Some? && cache.value.network.Some? then StatusResult(cache, cache.value, false)
    else StatusResult(Some(Fetch(p)), Fetch(p), true)
  }

  /** A status call after a fetch that found the network is served from the
      cache; one after a fetch that did not refetches. */
  lemma StatusAfterFetch(cache: Cache, p: Probe, q: Probe)
    ensures var first := Status(cache, p);
            var second := Status(first.cache, q);
            (first.snapshot.network.Some? ==> !second.fetched && second.snapshot == first.snapshot)
            && (first.snapshot.network.None? ==> second.fetched && second.snapshot == Fetch(q))
  {
  }

  datatype StoreResult = StoreResult(cache: Cache, snapshot: Snapshot, fetched: bool, written: bool)

  /** `storeStatus(force)`: a forced store drops the cache first, then the
      status snapshot is written to `files/status.json`; whether or not the
      write succeeds, the cache holds the status snapshot. `written` is the
      write's outcome, given by the caller. */
  function StoreStatus(cache: Cache, force: bool, p: Probe, writeOk: bool): (r: StoreResult)
    ensures r.cache == Some(r.snapshot)
    ensures r.written == writeOk
    ensures force ==> r.fetched && r.snapshot == Fetch(p)
    ensures !force && cache.Some? && cache.value.network.Some? ==> !r.fetched && r.snapshot == cache.value
    ensures !force ==> (r.fetched <==> !(cache.Some? && cache.value.network.Some?))
    ensures r.fetched ==> r.snapshot == Fetch(p)
  {
    var st := Status(if force then None else cache, p);
    StoreResult(st.cache, st.snapshot, st.fetched, writeOk)
  }

  /** The status file's path. */
  const StatusPath: string := "files/status.json"
}

=== FILE: cluster.dfy ===
/** The cluster configuration record and the topology derived from it:
    instance names `<prefix or role>-<n>` for `n` in `1..count`, controllers
    listed before workers. */
module Cluster {
  import opened Text

  /** The two instance roles the cluster has. */
  datatype Role = Controller | Worker

  /** One role's entry of the configuration. A `count` of 0 stands for a zero
      or missing count, and an empty `prefix` for a missing one (both are
      falsy in the source and get the same treatment). */
  datatype RoleConfig = RoleConfig(prefix: string, count: nat)

  /** The default certificate-subject fields (`cluster.csr`). */
  datatype Subject = Subject(C: string, L: string, O: string, OU: string, ST: string)

  datatype Ports = Ports(api: nat, health: nat, ssh: nat, etcdClient: nat, etcdPeer: nat)

  datatype Config = Config(
    app: string,
    region: string,
    zone: string,
    csr: Subject,
    controllers: RoleConfig,
    workers: RoleConfig,
    ports: Ports,
    imageProject: string,
    imageFamily: string,
    machineType: string)

  /** The shipped default configuration, used as a concrete witness. */
  function DefaultConfig(): Config {
    Config(
      "n2", "us-east1", "us-east1-b",
      Subject("", "", "", "", ""),
      RoleConfig("controller", 1),
      RoleConfig("worker", 1),
      Ports(6443, 80, 22, 2379, 2380),
      "ubuntu-os-cloud", "ubuntu-1810", "g1-small")
  }

  /** The role's own word, used when no prefix is configured and as the
      name of its update script. */
  function RoleWord(role: Role): string {
    match role
    case Controller => "controller"
    case Worker => "worker"
  }

  function RoleEntry(c: Config, role: Role): RoleConfig {
    match role
    case Controller => c.controllers
    case Worker => c.workers
  }

  function Count(c: Config, role: Role): nat {
    RoleEntry(c, role).count
  }

  /** `config.prefix || type`. */
  function EffectivePrefix(c: Config, role: Role): (p: string)
    ensures p != ""
  {
    var prefix := RoleEntry(c, role).prefix;
    if prefix == "" then RoleWord(role) else prefix
  }

  /** `instanceName(type, num)`. */
  function InstanceName(c: Config, role: Role, n: nat): string {
    EffectivePrefix(c, role) + "-" + NatToString(n)
  }

  /** `instanceNames(type)`: ordinals `1..count`, in order. */
  function RoleNames(c: Config, role: Role): (names: seq<string>)
    ensures |names| == Count(c, role)
  {
    seq(Count(c, role), i requires 0 <= i < Count(c, role) => InstanceName(c, role, i + 1))
  }

  function Controllers(c: Config): seq<string> {
    RoleNames(c, Controller)
  }

  function Workers(c: Config): seq<string> {
    RoleNames(c, Worker)
  }

  /** `instanceNames()`: controllers first, then workers. */
  function InstanceNames(c: Config): seq<string> {
    Controllers(c) + Workers(c)
  }

  /** An instance name taken apart at its last dash. */
  datatype NameParts = NameParts(prefix: string, ordinal: nat)

  /** The position of the last `-` in `s`, if any. */
  function LastDash(s: string): (r: Option<nat>)
    ensures r.Some? ==> r.value < |s| && s[r.value] == '-'
    ensures r.Some? ==> forall j :: r.value < j < |s| ==> s[j] != '-'
    ensures r.None? ==> forall j :: 0 <= j < |s| ==> s[j] != '-'
    decreases |s|
  {
    if |s| == 0 then None
    else if s[|s| - 1] == '-' then Some(|s| - 1)
    else LastDash(s[..|s| - 1])
  }

  /** Reads back the prefix and the ordinal of an instance name. */
  function ParseInstanceName(s: string): Option<NameParts> {
    match LastDash(s)
    case None => None
    case Some(k) =>
      var digits := s[k + 1..];
      if |digits| > 0 && IsDigits(digits) then Some(NameParts(s[..k], ParseDigits(digits)))
      else None
  }

  /** Instance names carry their prefix and ordinal recoverably: the name is
      the prefix, a dash and the decimal ordinal, and nothing else. */
  lemma {:induction false} ParseInstanceNameRoundTrip(p: string, n: nat)
    ensures ParseInstanceName(p + "-" + NatToString(n)) == Some(NameParts(p, n))
  {
    var d := NatToString(n);
    var s := p + "-" + d;
    assert s[|p|] == '-';
    assert forall j :: |p| < j < |s| ==> s[j] == d[j - |p| - 1];
    assert LastDash(s) == Some(|p|);
    var kv := |p|;
    assert s[..kv] == p;
    assert s[kv + 1..] == d;
    ParseNatToString(n);
  }

  /** Distinct (prefix, ordinal) pairs give distinct names. */
  lemma NameFormInjective(p1: string, n1: nat, p2: string, n2: nat)
    requires p1 + "-" + NatToString(n1) == p2 + "-" + NatToString(n2)
    ensures p1 == p2 && n1 == n2
  {
    ParseInstanceNameRoundTrip(p1, n1);
    ParseInstanceNameRoundTrip(p2, n2);
  }

  /** Within a role, distinct ordinals give distinct names; across roles,
      names coincide only when the effective prefixes do. */
  lemma InstanceNameInjective(c: Config, r1: Role, n1: nat, r2: Role, n2: nat)
    ensures InstanceName(c, r1, n1) == InstanceName(c, r2, n2)
        <==> EffectivePrefix(c, r1) == EffectivePrefix(c, r2) && n1 == n2
  {
    if InstanceName(c, r1, n1) == InstanceName(c, r2, n2) {
      NameFormInjective(EffectivePrefix(c, r1), n1, EffectivePrefix(c, r2), n2);
    }
  }

  predicate NoDuplicates(xs: seq<string>) {
    forall i, j :: 0 <= i < j < |xs| ==> xs[i] != xs[j]
  }

  /** `instanceNames()` lists `count(controllers)` controller names, then
      `count(workers)` worker names, each `<prefix>-<ordinal>`; a zero count
      contributes nothing. */
  lemma InstanceNamesShape(c: Config)
    ensures |InstanceNames(c)| == Count(c, Controller) + Count(c, Worker)
    ensures forall i :: 0 <= i < Count(c, Controller) ==>
              InstanceNames(c)[i] == EffectivePrefix(c, Controller) + "-" + NatToString(i + 1)
    ensures forall i :: Count(c, Controller) <= i < |InstanceNames(c)| ==>
              InstanceNames(c)[i] == EffectivePrefix(c, Worker) + "-" + NatToString(i - Count(c, Controller) + 1)
  {
  }

  /** The full name list is free of repeats exactly when the two roles'
      effective prefixes differ or one of the roles is empty. */
  lemma InstanceNamesDistinct(c: Config)
    ensures NoDuplicates(InstanceNames(c))
        <==> (EffectivePrefix(c, Controller) != EffectivePrefix(c, Worker)
              || Count(c, Controller) == 0 || Count(c, Worker) == 0)
  {
    var names := InstanceNames(c);
    var nc := Count(c, Controller);
    if EffectivePrefix(c, Controller) != EffectivePrefix(c, Worker) || nc == 0 || Count(c, Worker) == 0 {
      forall i, j | 0 <= i < j < |names|
        ensures names[i] != names[j]
      {
        var ri := if i < nc then Controller else Worker;
        var ni := if i < nc then i + 1 else i - nc + 1;
        var rj := if j < nc then Controller else Worker;
        var nj := if j < nc then j + 1 else j - nc + 1;
        assert names[i] == InstanceName(c, ri, ni);
        assert names[j] == InstanceName(c, rj, nj);
        InstanceNameInjective(c, ri, ni, rj, nj);
      }
    } else {
      assert names[0] == InstanceName(c, Controller, 1);
      assert names[nc] == InstanceName(c, Worker, 1);
    }
  }

  /** With one controller and two workers under the default prefixes the
      name list is `controller-1, worker-1, worker-2`. */
  lemma OneControllerTwoWorkers()
    ensures InstanceNames(DefaultConfig().(workers := RoleConfig("worker", 2)))
         == ["controller-1", "worker-1", "worker-2"]
  {
    var c := DefaultConfig().(workers := RoleConfig("worker", 2));
    assert NatToString(1) == "1";
    assert NatToString(2) == "2";
    assert Controllers(c)[0] == "controller-1";
    assert Workers(c)[0] == "worker-1";
    assert Workers(c)[1] == "worker-2";
    assert Controllers(c) == ["controller-1"];
    assert Workers(c) == ["worker-1", "worker-2"];
  }
}

=== FILE: contexts.dfy ===
/** Kubeconfig context derivation (`create_context(s)`): for each context
    name the API server address, the client credential files, the user
    name, the kubeconfig file, and the five `kubectl config` command lines
    that build it. */
module Contexts {
  import opened Text
  import opened Cluster
  import opened Cloud
  import opened Exec
  import opened Pki

  /** Names that talk to the API server on the controller itself: those
      matching `admin`, `kube-controller-manager` or `kube-scheduler`
      anywhere. */
  predicate IsLocalName(name: string) {
    Contains(name, "admin") || Contains(name, "kube-controller-manager") || Contains(name, "kube-scheduler")
  }

  /** How a template string prints an optional value: null prints as
      `null`. */
  function TemplateText(o: Option<string>): string {
    match o
    case Some(s) => s
    case None => "null"
  }

  /** The cluster `server` option. */
  function Server(cache: Cache, c: Config, name: string): string
    requires cache.Some?
  {
    "https://" + (if IsLocalName(name) then "127.0.0.1" else TemplateText(ForwardingIP(cache, "api")))
      + ":" + NatToString(c.ports.api)
  }

  /** The client credential pair's common path: the application's own
      context uses the `admin` pair. */
  function CredentialPrefix(app: string, name: string): string {
    "files/"
      + (if app != name then (if IsWorkerName(name) then name + "/" + name else "certs/" + name)
         else "certs/admin")
  }

  function ClientCertificate(app: string, name: string): string {
    CredentialPrefix(app, name) + ".pem"
  }

  function ClientKey(app: string, name: string): string {
    CredentialPrefix(app, name) + "-key.pem"
  }

  /** The user / credential name. */
  function User(name: string): string {
    if IsWorkerName(name) then "system:node:" + name
    else if IsKubeName(name) then "system:" + name
    else name
  }

  /** The kubeconfig file a context is written to: `None` for the
      application's own context, which goes to kubectl's default file. */
  function KubeconfigPath(app: string, name: string): Option<string> {
    if name == app then None
    else Some("files/" + KubeconfigStem(name) + ".kubeconfig")
  }

  /** The directory-and-name part of a kubeconfig path. */
  function KubeconfigStem(name: string): string {
    if IsWorkerName(name) then name + "/" + name else name
  }

  /** The `--kubeconfig=` flag every command carries, empty for the
      default file. */
  function KubeconfigFlag(app: string, name: string): string {
    match KubeconfigPath(app, name)
    case None => ""
    case Some(p) => "--kubeconfig=" + p
  }

  /** `opts(input)`: `--key=value` per entry, in insertion order,
      space-separated. */
  function Opts(pairs: seq<(string, string)>): string {
    Join(" ", seq(|pairs|, i requires 0 <= i < |pairs| => "--" + pairs[i].0 + "=" + pairs[i].1))
  }

  function ClusterOpts(cache: Cache, c: Config, name: string): seq<(string, string)>
    requires cache.Some?
  {
    [("certificate-authority", "files/certs/ca.pem"), ("embed-certs", "true"), ("server", Server(cache, c, name))]
  }

  function CredentialOpts(app: string, name: string): seq<(string, string)> {
    [("client-certificate", ClientCertificate(app, name)), ("client-key", ClientKey(app, name)), ("embed-certs", "true")]
  }

  function ContextOpts(app: string, name: string): seq<(string, string)> {
    [("cluster", app), ("user", User(name))]
  }

  /** The five command lines, in the order they run. The cluster entry is
      set twice. */
  function ContextCommands(cache: Cache, c: Config, name: string): seq<string>
    requires cache.Some?
  {
    var kc := KubeconfigFlag(c.app, name);
    var setCluster := "kubectl config set-cluster " + c.app + " " + Opts(ClusterOpts(cache, c, name)) + " " + kc;
    [ setCluster,
      "kubectl config set-credentials " + User(name) + " " + Opts(CredentialOpts(c.app, name)) + " " + kc,
      setCluster,
      "kubectl config set-context default " + Opts(ContextOpts(c.app, name)) + " " + kc,
      "kubectl config use-context default  " + kc ]
  }

  /** The five commands as effects. */
  function ContextEffects(cache: Cache, c: Config, name: string): (fx: seq<Effect>)
    requires cache.Some?
    ensures |fx| == 5
    ensures forall i :: 0 <= i < 5 ==> fx[i] == Run(ContextCommands(cache, c, name)[i])
  {
    var cmds := ContextCommands(cache, c, name);
    [Run(cmds[0]), Run(cmds[1]), Run(cmds[2]), Run(cmds[3]), Run(cmds[4])]
  }

  /** `create_context(name)`: the five commands as one `.then` chain. */
  function CreateContext(cache: Cache, c: Config, name: string, fx: Effect -> Settle): (r: Trace<Effect>)
    requires cache.Some?
    ensures r.started <= ContextEffects(cache, c, name)
    ensures r.outcome == Resolved <==> forall i :: 0 <= i < 5 ==> fx(Run(ContextCommands(cache, c, name)[i])) == Resolved
    ensures r.outcome != Resolved ==> 0 < |r.started| && fx(r.started[|r.started| - 1]) == r.outcome
    ensures r.outcome == Resolved ==> r.started == ContextEffects(cache, c, name)
    ensures forall i :: 0 <= i < |r.started| - 1 ==> fx(r.started[i]) == Resolved
  {
    Chain(ContextEffects(cache, c, name), fx)
  }

  /** The contexts `create_contexts` builds, in launch order. */
  function ContextNames(c: Config): seq<string> {
    ["kube-proxy", "kube-controller-manager", "kube-scheduler", "admin", c.app] + Workers(c)
  }

  /** `create_contexts`: every context's chain starts at once, and the step
      settles as `Promise.all` over them does. */
  function CreateContexts(cache: Cache, c: Config, fx: Effect -> Settle): (r: Trace<string>)
    requires cache.Some?
    ensures r.started == ContextNames(c)
    ensures r.outcome == Resolved <==>
              forall i :: 0 <= i < |ContextNames(c)| ==> ContextOutcome(cache, c, ContextNames(c)[i], fx) == Resolved
    ensures r.outcome == Rejected <==>
              exists i :: 0 <= i < |ContextNames(c)| && ContextOutcome(cache, c, ContextNames(c)[i], fx) == Rejected
  {
    var names := ContextNames(c);
    var settle := name => ContextOutcome(cache, c, name, fx);
    assert forall i :: 0 <= i < |names| ==> settle(names[i]) == ContextOutcome(cache, c, names[i], fx);
    All(names, settle)
  }

  function ContextOutcome(cache: Cache, c: Config, name: string, fx: Effect -> Settle): Settle
    requires cache.Some?
  {
    CreateContext(cache, c, name, fx).outcome
  }

  // ---------------------------------------------------------------------
  // Properties

  /** The server address: loopback for the local control-plane names, the
      API forwarding address otherwise, printed as `null` when the
      snapshot has none. */
  lemma ServerRule(cache: Cache, c: Config, name: string)
    requires cache.Some?
    ensures IsLocalName(name) ==> Server(cache, c, name) == "https://127.0.0.1:" + NatToString(c.ports.api)
    ensures !IsLocalName(name) && ForwardingIP(cache, "api").Some? ==>
              Server(cache, c, name) == "https://" + ForwardingIP(cache, "api").value + ":" + NatToString(c.ports.api)
    ensures !IsLocalName(name) && ForwardingIP(cache, "api").None? ==>
              Server(cache, c, name) == "https://null:" + NatToString(c.ports.api)
  {
  }

  /** Of the fixed context names, the controller manager, the scheduler
      and `admin` use the loopback address, `kube-proxy` does not. */
  lemma FixedServerClasses()
    ensures IsLocalName("kube-controller-manager")
    ensures IsLocalName("kube-scheduler")
    ensures IsLocalName("admin")
    ensures !IsLocalName("kube-proxy")
  {
    assert OccursAt("kube-controller-manager", "kube-controller-manager", 0);
    assert OccursAt("kube-scheduler", "kube-scheduler", 0);
    assert OccursAt("admin", "admin", 0);
    assert !Contains("kube-proxy", "admin") by {
      if Contains("kube-proxy", "admin") {
        ContainsChar("kube-proxy", "admin", 0);
      }
    }
    ShortNoContains("kube-proxy", "kube-controller-manager");
    ShortNoContains("kube-proxy", "kube-scheduler");
  }

  /** A context reads exactly the pair `create_certificate` issues: the
      subject's own pair, or the `admin` pair for the application's own
      context. */
  lemma CredentialsAreIssuedPair(app: string, name: string)
    ensures ClientCertificate(app, name) == CertificatePath(if name == app then "admin" else name)
    ensures ClientKey(app, name) == KeyPath(if name == app then "admin" else name)
  {
    if name == app {
      AdminClass();
      assert CredentialPrefix(app, name) == "files/" + "certs/" + "admin";
    } else if IsWorkerName(name) {
      assert CredentialPrefix(app, name) == "files/" + (name + "/" + name);
    } else {
      assert CredentialPrefix(app, name) == "files/" + ("certs/" + name);
    }
  }

  /** The user name follows the certificate CN rule for every name but
      `ca`, whose CN is the uppercased application name instead. */
  lemma UserIsCommonName(app: string, name: string)
    ensures name != "ca" ==> User(name) == CommonName(app, name)
    ensures User("ca") == "ca"
  {
    CaClass();
  }

  /** A worker context (other than the application's own) is written to
      `files/<w>/<w>.kubeconfig`, beside the worker's certificate pair. */
  lemma WorkerKubeconfig(app: string, w: string)
    requires IsWorkerName(w) && w != app
    ensures KubeconfigPath(app, w) == Some("files/" + w + "/" + w + ".kubeconfig")
    ensures KubeconfigPath(app, w).value == OutputPrefix(w) + ".kubeconfig"
  {
    assert KubeconfigStem(w) == w + "/" + w;
    assert "files/" + (w + "/" + w) + ".kubeconfig" == "files/" + w + "/" + w + ".kubeconfig";
    assert OutputPrefix(w) == "files/" + (w + "/" + w);
  }

  /** Distinct contexts other than the application's own write distinct
      kubeconfig files, so the concurrent chains never share a file. */
  lemma KubeconfigPathInjective(app: string, n1: string, n2: string)
    requires n1 != app && n2 != app && n1 != n2
    ensures KubeconfigPath(app, n1) != KubeconfigPath(app, n2)
  {
    var p1 := "files/" + KubeconfigStem(n1) + ".kubeconfig";
    var p2 := "files/" + KubeconfigStem(n2) + ".kubeconfig";
    assert KubeconfigPath(app, n1) == Some(p1);
    assert KubeconfigPath(app, n2) == Some(p2);
    if p1 == p2 {
      StemOfPath(KubeconfigStem(n1), KubeconfigStem(n2));
      StemInjective(n1, n2);
    }
  }

  lemma StemOfPath(s1: string, s2: string)
    requires "files/" + s1 + ".kubeconfig" == "files/" + s2 + ".kubeconfig"
    ensures s1 == s2
  {
    var p := "files/" + s1 + ".kubeconfig";
    assert |s1| == |s2|;
    assert s1 == p[6..6 + |s1|];
    assert s2 == p[6..6 + |s2|];
  }

  /** The stem determines the name: two worker stems of equal length come
      from equal names, and a non-worker name never equals a worker stem,
      which would contain `worker`. */
  lemma StemInjective(n1: string, n2: string)
    requires KubeconfigStem(n1) == KubeconfigStem(n2)
    ensures n1 == n2
  {
    var s := KubeconfigStem(n1);
    if IsWorkerName(n1) && IsWorkerName(n2) {
      assert |n1| == |n2|;
      assert n1 == s[..|n1|];
      assert n2 == s[..|n2|];
    } else if IsWorkerName(n1) {
      assert n1 + "/" + n1 == n1 + ("/" + n1);
      ContainsPrefix(n1, "/" + n1, "worker");
    } else if IsWorkerName(n2) {
      assert n2 + "/" + n2 == n2 + ("/" + n2);
      ContainsPrefix(n2, "/" + n2, "worker");
    }
  }

  /** Every command addresses the same kubeconfig file: each ends with the
      context's `--kubeconfig` flag, which is empty for the application's
      own context. */
  lemma ContextCommandsTarget(cache: Cache, c: Config, name: string)
    requires cache.Some?
    ensures forall i :: 0 <= i < 5 ==> EndsWith(ContextCommands(cache, c, name)[i], KubeconfigFlag(c.app, name))
    ensures name == c.app ==> KubeconfigFlag(c.app, name) == ""
  {
    var cmds := ContextCommands(cache, c, name);
    var kc := KubeconfigFlag(c.app, name);
    forall i | 0 <= i < 5
      ensures EndsWith(cmds[i], kc)
    {
      assert cmds[i][|cmds[i]| - |kc|..] == kc;
    }
  }

  /** The cluster entry is written before and after the credentials, then
      the context entry, and the context is switched to last. */
  lemma ContextCommandsOrder(cache: Cache, c: Config, name: string)
    requires cache.Some?
    ensures var cmds := ContextCommands(cache, c, name);
            && cmds[0] == cmds[2]
            && StartsWith(cmds[0], "kubectl config set-cluster " + c.app + " ")
            && StartsWith(cmds[1], "kubectl config set-credentials ")
            && StartsWith(cmds[3], "kubectl config set-context default ")
            && cmds[4] == "kubectl config use-context default  " + KubeconfigFlag(c.app, name)
  {
    var cmds := ContextCommands(cache, c, name);
    var p0 := "kubectl config set-cluster " + c.app + " ";
    assert cmds[0][..|p0|] == p0;
    assert cmds[1][..31] == "kubectl config set-credentials ";
    assert cmds[3][..35] == "kubectl config set-context default ";
  }

  /** The credentials command names the user its context entry refers
      to. */
  lemma CredentialsNameTheUser(cache: Cache, c: Config, name: string)
    requires cache.Some?
    ensures ContextOpts(c.app, name)[1] == ("user", User(name))
    ensures StartsWith(ContextCommands(cache, c, name)[1], "kubectl config set-credentials " + User(name) + " ")
  {
    var cmd := ContextCommands(cache, c, name)[1];
    var p := "kubectl config set-credentials " + User(name) + " ";
    assert cmd[..|p|] == p;
  }

  /** The `opts` rendering of the credential options lists the pair
      `create_certificate` issues. */
  lemma CredentialOptsText(app: string, name: string)
    ensures Opts(CredentialOpts(app, name))
         == "--client-certificate=" + ClientCertificate(app, name)
          + " --client-key=" + ClientKey(app, name) + " --embed-certs=true"
  {
    CredentialFlags(ClientCertificate(app, name), ClientKey(app, name));
  }

  lemma CredentialFlags(cert: string, key: string)
    ensures Opts([("client-certificate", cert), ("client-key", key), ("embed-certs", "true")])
         == "--client-certificate=" + cert + " --client-key=" + key + " --embed-certs=true"
  {
    var pairs := [("client-certificate", cert), ("client-key", key), ("embed-certs", "true")];
    OptsThree(pairs);
    CredentialFlagTexts();
    RegroupFlags(pairs[0].0, cert, pairs[1].0, key, pairs[2].0 + "=" + pairs[2].1);
  }

  lemma CredentialFlagTexts()
    ensures "--" + "client-certificate" + "=" == "--client-certificate="
    ensures " --" + "client-key" + "=" == " --client-key="
    ensures " --" + ("embed-certs" + "=" + "true") == " --embed-certs=true"
  {
  }

  /** Regroups three rendered flags around their values. */
  lemma RegroupFlags(k0: string, v0: string, k1: string, v1: string, last: string)
    ensures "--" + k0 + "=" + v0 + " --" + k1 + "=" + v1 + " --" + last
         == ("--" + k0 + "=") + v0 + (" --" + k1 + "=") + v1 + (" --" + last)
  {
  }

  lemma OptsThree(pairs: seq<(string, string)>)
    requires |pairs| == 3
    ensures Opts(pairs) == "--" + pairs[0].0 + "=" + pairs[0].1 + " --" + pairs[1].0 + "=" + pairs[1].1
                          + " --" + pairs[2].0 + "=" + pairs[2].1
  {
    var items := seq(|pairs|, i requires 0 <= i < |pairs| => "--" + pairs[i].0 + "=" + pairs[i].1);
    assert items == [items[0], items[1], items[2]];
    JoinThree(" ", items[0], items[1], items[2]);
  }

  /** A context chain stops at its first command that does not resolve:
      no later command of that context starts. */
  lemma ContextStopsAtFailure(cache: Cache, c: Config, name: string, fx: Effect -> Settle, k: nat)
    requires cache.Some? && k < 5
    requires fx(Run(ContextCommands(cache, c, name)[k])) != Resolved
    ensures |CreateContext(cache, c, name, fx).started| <= k + 1
    ensures CreateContext(cache, c, name, fx).outcome != Resolved
  {
  }
}

=== FILE: exec.dfy ===
/** How the orchestrator runs external effects. Every shell command, file
    write, file read and template render is an opaque effect whose outcome
    an oracle decides; what the model tracks is which effects get started
    and how their outcomes combine: a `.then` chain runs strictly one after
    another and stops at the first effect that does not resolve, while
    `Promise.all` launches everything at once. */
module Exec {
  import opened Text

  /** How a promise ends up: resolved, rejected, or never settled. */
  datatype Settle = Resolved | Rejected | Pending

  /** The effects the core performs. `Run` is a full shell command line. */
  datatype Effect =
    | Run(command: string)
    | Write(path: string)
    | Read(path: string)
    | Render(template: string, output: string)
    | Remove(path: string)

  /** The items a combinator started, in order, and how it settled. */
  datatype Trace<T> = Trace(started: seq<T>, outcome: Settle)

  /** A `.then` chain: each item starts only after the previous one
      resolved, and the first rejection (or hang) ends the chain with that
      outcome. */
  function Chain<T>(items: seq<T>, settle: T -> Settle): (r: Trace<T>)
    ensures r.started <= items
    ensures r.outcome == Resolved <==> forall i :: 0 <= i < |items| ==> settle(items[i]) == Resolved
    ensures r.outcome == Resolved ==> r.started == items
    ensures forall i :: 0 <= i < |r.started| - 1 ==> settle(r.started[i]) == Resolved
    ensures r.outcome != Resolved ==> 0 < |r.started| && settle(r.started[|r.started| - 1]) == r.outcome
    decreases |items|
  {
    if |items| == 0 then Trace([], Resolved)
    else if settle(items[0]) != Resolved then Trace([items[0]], settle(items[0]))
    else
      var rest := Chain(items[1..], settle);
      assert forall i :: 1 <= i < |items| ==> items[i] == items[1..][i - 1];
      Trace([items[0]] + rest.started, rest.outcome)
  }

  /** How `Promise.all` settles over its members' outcomes: rejected as soon
      as any member rejects, pending while any member never settles, and
      resolved only when every member resolved. */
  function Combine(outs: seq<Settle>): (r: Settle)
    ensures r == Rejected <==> exists i :: 0 <= i < |outs| && outs[i] == Rejected
    ensures r == Resolved <==> forall i :: 0 <= i < |outs| ==> outs[i] == Resolved
    decreases |outs|
  {
    if |outs| == 0 then Resolved
    else
      var rest := Combine(outs[1..]);
      assert forall i :: 1 <= i < |outs| ==> outs[i] == outs[1..][i - 1];
      if outs[0] == Rejected || rest == Rejected then Rejected
      else if outs[0] == Pending || rest == Pending then Pending
      else Resolved
  }

  /** `Promise.all(items.map(start))`: every item is launched, none waits
      for another. */
  function All<T>(items: seq<T>, settle: T -> Settle): (r: Trace<T>)
    ensures r.started == items
    ensures r.outcome == Rejected <==> exists i :: 0 <= i < |items| && settle(items[i]) == Rejected
    ensures r.outcome == Resolved <==> forall i :: 0 <= i < |items| ==> settle(items[i]) == Resolved
  {
    var outs := seq(|items|, i requires 0 <= i < |items| => settle(items[i]));
    assert forall i :: 0 <= i < |items| ==> outs[i] == settle(items[i]);
    assert (exists i :: 0 <= i < |items| && settle(items[i]) == Rejected)
        <==> (exists i :: 0 <= i < |outs| && outs[i] == Rejected);
    Trace(items, Combine(outs))
  }

  /** `Promise.all(items).then(_ => res(true))` inside a promise that
      nothing ever rejects: it resolves when every item does and otherwise
      never settles. */
  function AllOrPending<T>(items: seq<T>, settle: T -> Settle): (r: Trace<T>)
    ensures r.started == items
    ensures r.outcome != Rejected
    ensures r.outcome == Resolved <==> forall i :: 0 <= i < |items| ==> settle(items[i]) == Resolved
  {
    var all := All(items, settle);
    Trace(items, if all.outcome == Resolved then Resolved else Pending)
  }

  /** `Promise.all(items).then(_ => last)`: every item starts at once, and
      `last` starts only once all of them resolved. */
  function AllThen<T>(items: seq<T>, last: T, settle: T -> Settle): (r: Trace<T>)
    ensures r.started == items || r.started == items + [last]
    ensures r.started == items + [last] <==> forall i :: 0 <= i < |items| ==> settle(items[i]) == Resolved
    ensures r.outcome == Resolved <==>
              (forall i :: 0 <= i < |items| ==> settle(items[i]) == Resolved) && settle(last) == Resolved
  {
    var all := All(items, settle);
    if all.outcome != Resolved then
      assert |items| < |items + [last]|;
      Trace(items, all.outcome)
    else Trace(items + [last], settle(last))
  }

  /** A `.then` chain over `head`, then `Promise.all(items)`, then `last`:
      each stage starts only once the one before it resolved. */
  function Staged<T>(head: seq<T>, items: seq<T>, last: T, settle: T -> Settle): (r: Trace<T>)
    ensures Chain(head, settle).outcome != Resolved ==> r == Chain(head, settle)
    ensures Chain(head, settle).outcome == Resolved ==> head + items <= r.started
    ensures Chain(head, settle).outcome == Resolved ==>
              (r.started == head + items || r.started == head + items + [last])
    ensures Chain(head, settle).outcome == Resolved ==>
              (r.started == head + items + [last] <==> forall i :: 0 <= i < |items| ==> settle(items[i]) == Resolved)
    ensures r.outcome == Resolved <==>
              && (forall i :: 0 <= i < |head| ==> settle(head[i]) == Resolved)
              && (forall i :: 0 <= i < |items| ==> settle(items[i]) == Resolved)
              && settle(last) == Resolved
    ensures last in r.started && last !in head && last !in items ==>
              && (forall i :: 0 <= i < |head| ==> settle(head[i]) == Resolved)
              && (forall i :: 0 <= i < |items| ==> settle(items[i]) == Resolved)
  {
    var h := Chain(head, settle);
    if h.outcome != Resolved then h
    else
      var tail := AllThen(items, last, settle);
      assert (head + items)[..|head + items|] == head + items;
      assert (head + (items + [last]))[..|head + items|] == head + items;
      Trace(head + tail.started, tail.outcome)
  }

  /** A chain over `a + b` is the chain over `a`, followed, only if `a`
      resolved completely, by the chain over `b`: nesting `.then` chains is
      the same as concatenating them. */
  lemma {:induction false} ChainAppend<T>(a: seq<T>, b: seq<T>, settle: T -> Settle)
    ensures Chain(a + b, settle)
         == if Chain(a, settle).outcome == Resolved
            then Trace(a + Chain(b, settle).started, Chain(b, settle).outcome)
            else Chain(a, settle)
    decreases |a|
  {
    if |a| == 0 {
      assert a + b == b;
    } else {
      var ab := a + b;
      assert ab[0] == a[0] && ab[1..] == a[1..] + b;
      ChainStep(ab, settle);
      ChainStep(a, settle);
      if settle(a[0]) == Resolved {
        ChainAppend(a[1..], b, settle);
        if Chain(a[1..], settle).outcome == Resolved {
          assert [a[0]] + (a[1..] + Chain(b, settle).started) == a + Chain(b, settle).started;
        }
      }
    }
  }

  /** One step of a chain: its first item, then the chain over the rest. */
  lemma ChainStep<T>(items: seq<T>, settle: T -> Settle)
    requires 0 < |items|
    ensures Chain(items, settle)
         == if settle(items[0]) != Resolved then Trace([items[0]], settle(items[0]))
            else Trace([items[0]] + Chain(items[1..], settle).started, Chain(items[1..], settle).outcome)
  {
  }

  /** An item appended to a chain, and found nowhere before it, starts
      exactly when every item before it resolved. */
  lemma ChainReachesLast<T>(items: seq<T>, last: T, settle: T -> Settle)
    requires last !in items
    ensures last in Chain(items + [last], settle).started <==>
              forall i :: 0 <= i < |items| ==> settle(items[i]) == Resolved
  {
    ChainAppend(items, [last], settle);
    var h := Chain(items, settle);
    assert Chain([last], settle).started == [last];
    if h.outcome == Resolved {
      assert (items + [last])[|items|] == last;
    } else {
      assert forall j :: 0 <= j < |h.started| ==> h.started[j] == items[j];
    }
  }

  /** Two oracles that agree on every item give the same chain. */
  lemma {:induction false} ChainSameOracle<T>(items: seq<T>, s1: T -> Settle, s2: T -> Settle)
    requires forall i :: 0 <= i < |items| ==> s1(items[i]) == s2(items[i])
    ensures Chain(items, s1) == Chain(items, s2)
    decreases |items|
  {
    if 0 < |items| {
      ChainStep(items, s1);
      ChainStep(items, s2);
      assert forall i :: 0 <= i < |items| - 1 ==> items[1..][i] == items[i + 1];
      ChainSameOracle(items[1..], s1, s2);
    }
  }

  /** A chain's trace is determined by the list and the oracle. */
  lemma ChainUnique<T>(items: seq<T>, settle: T -> Settle, started: seq<T>, outcome: Settle)
    requires started <= items
    requires outcome == Resolved <==> forall i :: 0 <= i < |items| ==> settle(items[i]) == Resolved
    requires outcome == Resolved ==> started == items
    requires outcome != Resolved ==> 0 < |started| && settle(started[|started| - 1]) == outcome
    requires forall i :: 0 <= i < |started| - 1 ==> settle(started[i]) == Resolved
    ensures started == Chain(items, settle).started && outcome == Chain(items, settle).outcome
  {
  }

  /** The same chain run step by step, as the teardown's `next` callback
      runs it: shift the first item, start it, and recurse only when it
      resolved. */
  method RunSequentially<T>(items: seq<T>, settle: T -> Settle) returns (started: seq<T>, outcome: Settle)
    ensures started <= items
    ensures outcome == Resolved <==> forall i :: 0 <= i < |items| ==> settle(items[i]) == Resolved
    ensures outcome == Resolved ==> started == items
    ensures outcome != Resolved ==> 0 < |started| && settle(started[|started| - 1]) == outcome
    ensures forall i :: 0 <= i < |started| - 1 ==> settle(started[i]) == Resolved
  {
    started := [];
    outcome := Resolved;
    var rest := items;
    while |rest| > 0
      invariant started + rest == items
      invariant outcome == Resolved
      invariant forall i :: 0 <= i < |started| ==> settle(started[i]) == Resolved
      decreases |rest|
    {
      var next := rest[0];
      rest := rest[1..];
      started := started + [next];
      if settle(next) != Resolved {
        outcome := settle(next);
        assert items[|started| - 1] == next;
        return;
      }
    }
  }

  /** `compute(subcmd)`: the provider CLI command line. The verbosity flag
      is added only for sub-commands containing ` deleteDISABLED `
      (case-insensitively), which none of the core's do. */
  function Compute(subcmd: string): (cmd: string)
    ensures StartsWith(cmd, "gcloud compute -q ")
    ensures EndsWith(cmd, subcmd)
  {
    var verbosity := if Contains(Lower(subcmd), " deletedisabled ") then "--verbosity=critical" else "";
    var cmd := "gcloud compute -q " + verbosity + " " + subcmd;
    assert cmd[..18] == "gcloud compute -q ";
    assert cmd[|cmd| - |subcmd|..] == subcmd;
    cmd
  }

  /** The provider command for a sub-command that has no ` deletedisabled `
      in it: the wrapper adds only an empty verbosity slot. */
  lemma ComputePlain(subcmd: string)
    requires !Contains(Lower(subcmd), " deletedisabled ")
    ensures Compute(subcmd) == "gcloud compute -q  " + subcmd
  {
  }
}

=== FILE: pipeline.dfy ===
/** The top-level actions: which component `create(type)` builds, and the
    order in which `up`, `start` and `reset` chain the steps. Each step
    settles as the model of the operation behind it does. */
module Pipeline {
  import opened Text
  import opened Cluster
  import opened Cloud
  import opened Exec
  import opened Pki
  import opened Provision

  /** What `create(type)` dispatches to. `NoComponent` is a type matching
      none of the patterns: nothing runs after the status store. */
  datatype Component =
    | Certificates | Configurations | Networks | Rules | Encryption | Instances | Everything | NoComponent

  /** The dispatch of `create(type)`. The patterns carry no end anchor, so
      each is a case-insensitive prefix test, tried in the source's order;
      note that the certificate pattern needs the whole word
      `certificate`. The empty type, or exactly `all` in any case, builds
      everything. */
  function ParseComponent(t: string): (k: Component) {
    var l := Lower(t);
    if StartsWith(l, "certificate") then Certificates
    else if StartsWith(l, "config") || StartsWith(l, "kubeconfig") then Configurations
    else if StartsWith(l, "net") then Networks
    else if StartsWith(l, "rule") then Rules
    else if StartsWith(l, "encryptio") then Encryption
    else if StartsWith(l, "instance") then Instances
    else if t == "" || l == "all" then Everything
    else NoComponent
  }

  /** The plural name a user types for a component. */
  function ComponentName(k: Component): string {
    match k
    case Certificates => "certificates"
    case Configurations => "configurations"
    case Networks => "networks"
    case Rules => "rules"
    case Encryption => "encryption"
    case Instances => "instances"
    case Everything => "all"
    case NoComponent => "none"
  }

  /** The steps the top-level actions are made of. */
  datatype Step =
    | NetworkStep | RulesStep | InstancesStep | StoreStep(force: bool) | CertificatesStep
    | ConfigurationsStep | EncryptionStep | DistributeStep | UpdateStep | TeardownStep

  /** `up`: network, rules, instances, a forced status refresh, then the
      certificates and the configurations. */
  const UpPlan: seq<Step> :=
    [NetworkStep, RulesStep, InstancesStep, StoreStep(true), CertificatesStep, ConfigurationsStep]

  function Dispatch(k: Component): seq<Step> {
    match k
    case Certificates => [CertificatesStep]
    case Configurations => [ConfigurationsStep]
    case Networks => [NetworkStep]
    case Rules => [RulesStep]
    case Encryption => [EncryptionStep]
    case Instances => [InstancesStep]
    case Everything => UpPlan
    case NoComponent => []
  }

  /** `create(type)`: a forced status refresh, then the dispatched steps. */
  function CreatePlan(t: string): seq<Step> {
    [StoreStep(true)] + Dispatch(ParseComponent(t))
  }

  /** `start`: create everything, then distribute the files, then update
      the hosts. */
  function StartPlan(): seq<Step> {
    CreatePlan("") + [DistributeStep, UpdateStep]
  }

  /** `reset`: tear everything down, then start. */
  function ResetPlan(): seq<Step> {
    [TeardownStep] + StartPlan()
  }

  /** What the steps see: the configuration, the cache as the action
      found it, the provider's answer to every status fetch during the
      action, and the oracle for every effect. */
  datatype Env = Env(c: Config, cache: Cache, p: Probe, fx: Effect -> Settle)

  /** How one step settles. The encryption step calls a method the class
      does not have, so it rejects with a type error. The certificates and
      configurations steps always follow a forced refresh, so they find the
      cache filled from the probe. */
  function StepSettle(env: Env, s: Step): Settle {
    match s
    case NetworkStep => CreateNetwork(env.c, env.fx).outcome
    case RulesStep => CreateRules(env.c, env.fx).outcome
    case InstancesStep => CreateInstances(env.c, env.fx).outcome
    case StoreStep(_) => env.fx(Write(StatusPath))
    case CertificatesStep => CreateCertificates(env.c, Issuances(Some(Fetch(env.p)), env.c, env.fx)).outcome
    case ConfigurationsStep => CreateConfigurations(Some(Fetch(env.p)), env.c, env.p, env.fx).outcome
    case EncryptionStep => Rejected
    case DistributeStep => Distribute(env.c, env.fx).outcome
    case UpdateStep => UpdateOs(env.c, env.fx).outcome
    case TeardownStep => Teardown(env.c, env.fx).outcome
  }

  /** A plan runs as one `.then` chain (`Exec.Chain`), each step settling
      as an oracle says; the ordering facts below hold for every such
      oracle, and `Settles(env)` is the one the step models give. */
  function Settles(env: Env): Step -> Settle {
    s => StepSettle(env, s)
  }

  // ---------------------------------------------------------------------
  // Properties

  /** Every component's plural name, typed in lower case, selects that
      component. */
  lemma ParseComponentName(k: Component)
    requires k != NoComponent
    ensures ParseComponent(ComponentName(k)) == k
  {
    match k
    case Certificates => ParseCertificates();
    case Configurations => ParseConfigurations();
    case Networks => ParseNetworks();
    case Rules => ParseRules();
    case Encryption => ParseEncryption();
    case Instances => ParseInstances();
    case Everything => ParseAll();
  }

  lemma ParseCertificates()
    ensures ParseComponent("certificates") == Certificates
  {
    var n := "certificates";
    LowerKeeps(n);
    assert n[..11] == "certificate";
  }

  lemma ParseConfigurations()
    ensures ParseComponent("configurations") == Configurations
  {
    var n := "configurations";
    LowerKeeps(n);
    assert n[1] != "certificate"[1];
    assert n[..6] == "config";
  }

  lemma ParseNetworks()
    ensures ParseComponent("networks") == Networks
  {
    var n := "networks";
    LowerKeeps(n);
    assert n[0] != "certificate"[0] && n[0] != "config"[0] && n[0] != "kubeconfig"[0];
    assert n[..3] == "net";
  }

  lemma ParseRules()
    ensures ParseComponent("rules") == Rules
  {
    var n := "rules";
    LowerKeeps(n);
    assert n[0] != "certificate"[0] && n[0] != "config"[0] && n[0] != "kubeconfig"[0] && n[0] != "net"[0];
    assert n[..4] == "rule";
  }

  lemma ParseEncryption()
    ensures ParseComponent("encryption") == Encryption
  {
    var n := "encryption";
    LowerKeeps(n);
    assert n[0] != "certificate"[0] && n[0] != "config"[0] && n[0] != "kubeconfig"[0] && n[0] != "net"[0];
    assert n[0] != "rule"[0];
    assert n[..9] == "encryptio";
  }

  lemma ParseInstances()
    ensures ParseComponent("instances") == Instances
  {
    var n := "instances";
    LowerKeeps(n);
    assert n[0] != "certificate"[0] && n[0] != "config"[0] && n[0] != "kubeconfig"[0] && n[0] != "net"[0];
    assert n[0] != "rule"[0] && n[0] != "encryptio"[0];
    assert n[..8] == "instance";
  }

  lemma ParseAll()
    ensures ParseComponent("all") == Everything
  {
    var n := "all";
    LowerKeeps(n);
    assert n[0] != "certificate"[0] && n[0] != "config"[0] && n[0] != "kubeconfig"[0] && n[0] != "net"[0];
    assert n[0] != "rule"[0] && n[0] != "encryptio"[0] && n[0] != "instance"[0];
  }

  /** A string of lower-case letters is its own lower case. */
  lemma LowerKeeps(s: string)
    requires forall i :: 0 <= i < |s| ==> 'a' <= s[i] <= 'z'
    ensures Lower(s) == s
  {
  }

  /** Upper-casing the type changes nothing: the dispatch ignores ASCII
      case. */
  lemma ParseIgnoresCase(t: string)
    ensures ParseComponent(Upper(t)) == ParseComponent(t)
  {
    assert Lower(Upper(t)) == Lower(t) by {
      forall i | 0 <= i < |t|
        ensures Lower(Upper(t))[i] == Lower(t)[i]
      {
        var ch := t[i];
        if 'a' <= ch <= 'z' {
          assert UpperChar(ch) as int == ch as int - 32;
        }
      }
    }
    assert Upper(t) == "" <==> t == "";
  }

  /** The dispatch rule for the certificates: only a type starting with
      the whole word `certificate` selects them, so the short `cert` and
      `certs` select nothing. */
  lemma CertificatesNeedTheWholeWord()
    ensures ParseComponent("certificates") == Certificates
    ensures ParseComponent("cert") == NoComponent
    ensures ParseComponent("certs") == NoComponent
  {
    ParseComponentName(Certificates);
    ShortCert("cert");
    ShortCert("certs");
  }

  lemma ShortCert(t: string)
    requires t == "cert" || t == "certs"
    ensures ParseComponent(t) == NoComponent
  {
    LowerKeeps(t);
    assert t[0] == 'c' && t[1] == 'e';
    assert t[0] != "net"[0] && t[0] != "rule"[0] && t[0] != "instance"[0] && t[0] != "kubeconfig"[0];
    assert t[1] != "config"[1];
    assert t[0] != "all"[0];
  }

  /** Every plan begins with the forced status refresh: every `create`
      re-reads the provider before doing anything else, and nothing else
      starts when the status cannot be stored. */
  lemma CreateStoresFirst(t: string, settle: Step -> Settle)
    ensures Chain(CreatePlan(t), settle).started[0] == StoreStep(true)
    ensures settle(StoreStep(true)) != Resolved ==> Chain(CreatePlan(t), settle).started == [StoreStep(true)]
  {
  }

  /** A type matching no pattern resolves once the status is stored and
      builds nothing. */
  lemma UnknownTypeDoesNothing(t: string, settle: Step -> Settle)
    requires ParseComponent(t) == NoComponent
    ensures Chain(CreatePlan(t), settle) == Trace([StoreStep(true)], settle(StoreStep(true)))
  {
    assert CreatePlan(t) == [StoreStep(true)];
  }

  /** An encryption request never resolves: it rejects once the status is
      stored. */
  lemma EncryptionRejects(t: string, env: Env)
    requires ParseComponent(t) == Encryption
    ensures Chain(CreatePlan(t), Settles(env)).outcome != Resolved
    ensures env.fx(Write(StatusPath)) == Resolved ==> Chain(CreatePlan(t), Settles(env)).outcome == Rejected
  {
    assert CreatePlan(t) == [StoreStep(true), EncryptionStep];
    assert Settles(env)(CreatePlan(t)[1]) == Rejected;
    assert Settles(env)(CreatePlan(t)[0]) == env.fx(Write(StatusPath));
  }

  /** The plan of `create` with no type: the forced refresh, then `up`. */
  lemma CreateAllPlan()
    ensures CreatePlan("") == [StoreStep(true)] + UpPlan
  {
    assert ParseComponent("") == Everything;
  }

  /** An item that does not occur earlier in a chain's list was started
      only if everything before it resolved. */
  lemma StartedAfter<T>(before: seq<T>, x: T, after: seq<T>, settle: T -> Settle)
    requires x !in before
    requires x in Chain(before + [x] + after, settle).started
    ensures forall i :: 0 <= i < |before| ==> settle(before[i]) == Resolved
  {
    var items := before + [x] + after;
    var r := Chain(items, settle);
    var m :| 0 <= m < |r.started| && r.started[m] == x;
    assert items[m] == x;
    assert forall j :: 0 <= j < |before| ==> items[j] == before[j];
    forall i | 0 <= i < |before|
      ensures settle(before[i]) == Resolved
    {
      assert r.started[i] == items[i] == before[i];
    }
  }

  /** The steps of `create` with no type that precede the certificates. */
  const BeforeCertificates: seq<Step> :=
    [StoreStep(true), NetworkStep, RulesStep, InstancesStep, StoreStep(true)]

  /** The plan of `create` with no type, around its last two steps. */
  lemma UpPlanShape()
    ensures CreatePlan("") == BeforeCertificates + [CertificatesStep] + [ConfigurationsStep]
    ensures CreatePlan("") == (BeforeCertificates + [CertificatesStep]) + [ConfigurationsStep] + []
  {
    CreateAllPlan();
  }

  /** Within `up`, the certificates are issued only after the network,
      rules and instances were created and the status was refreshed
      again. */
  lemma UpOrder(settle: Step -> Settle)
    ensures CertificatesStep in Chain(CreatePlan(""), settle).started ==>
              && settle(NetworkStep) == Resolved && settle(RulesStep) == Resolved
              && settle(InstancesStep) == Resolved && settle(StoreStep(true)) == Resolved
  {
    UpPlanShape();
    if CertificatesStep in Chain(BeforeCertificates + [CertificatesStep] + [ConfigurationsStep], settle).started {
      StartedAfter(BeforeCertificates, CertificatesStep, [ConfigurationsStep], settle);
      assert settle(BeforeCertificates[1]) == Resolved && settle(BeforeCertificates[2]) == Resolved;
      assert settle(BeforeCertificates[3]) == Resolved && settle(BeforeCertificates[4]) == Resolved;
    }
  }

  /** Within `up`, the configurations are rendered only after the
      certificates step resolved. */
  lemma ConfigurationsAfterCertificates(settle: Step -> Settle)
    ensures ConfigurationsStep in Chain(CreatePlan(""), settle).started ==> settle(CertificatesStep) == Resolved
  {
    UpPlanShape();
    var before := BeforeCertificates + [CertificatesStep];
    if ConfigurationsStep in Chain(before + [ConfigurationsStep] + [], settle).started {
      StartedAfter(before, ConfigurationsStep, [], settle);
      assert before[5] == CertificatesStep;
    }
  }

  /** `start` is `create` followed, only if it resolved, by distribution
      and update: the nested chains behave as the flat plan. */
  lemma StartComposes(settle: Step -> Settle)
    ensures var create := Chain(CreatePlan(""), settle);
            var deploy := Chain([DistributeStep, UpdateStep], settle);
            Chain(StartPlan(), settle)
            == if create.outcome == Resolved then Trace(CreatePlan("") + deploy.started, deploy.outcome) else create
  {
    ChainAppend(CreatePlan(""), [DistributeStep, UpdateStep], settle);
  }

  /** `reset` builds nothing unless the teardown resolved first. */
  lemma ResetTearsDownFirst(settle: Step -> Settle)
    ensures settle(TeardownStep) != Resolved ==>
              Chain(ResetPlan(), settle) == Trace([TeardownStep], settle(TeardownStep))
    ensures settle(TeardownStep) == Resolved ==>
              Chain(ResetPlan(), settle)
              == Trace([TeardownStep] + Chain(StartPlan(), settle).started, Chain(StartPlan(), settle).outcome)
  {
    ChainAppend([TeardownStep], StartPlan(), settle);
  }
}

=== FILE: pki.dfy ===
/** Certificate request derivation (`create_certificate(s)`): for each
    subject name the common name, the organization, the fixed RSA-2048 key,
    the cfssl flags with the subject-alternative-name list (section 4.2.1.6
    of RFC 5280), and the file layout of the request and of the issued
    pair. Names are classified by substring (`worker`, `kube-`), not by
    role. */
module Pki {
  import opened Text
  import opened Cluster
  import opened Cloud
  import opened Exec

  predicate IsWorkerName(cn: string) {
    Contains(cn, "worker")
  }

  predicate IsKubeName(cn: string) {
    Contains(cn, "kube-")
  }

  /** The certificate subject's CN (`fullCn`). */
  function CommonName(app: string, cn: string): string {
    if IsWorkerName(cn) then "system:node:" + cn
    else if IsKubeName(cn) then "system:" + cn
    else if cn == "ca" then Upper(app)
    else cn
  }

  /** The per-name organization table. */
  function TableOrganization(cn: string): Option<string> {
    if cn == "kube-proxy" then Some("system:node-proxier")
    else if cn == "worker" then Some("system:nodes")
    else if cn == "kube-controller-manager" then Some("system:kube-controller-manager")
    else if cn == "kube-scheduler" then Some("system:kube-scheduler")
    else if cn == "admin" then Some("system:masters")
    else None
  }

  /** `organization`: worker names, then the two uppercased-app subjects,
      then the table; `None` where nothing applies. */
  function Organization(app: string, cn: string): Option<string> {
    if IsWorkerName(cn) then Some("system:nodes")
    else if cn == "ca" || cn == "service-account" then Some(Upper(app))
    else TableOrganization(cn)
  }

  /** The single `names` entry: the configured subject with its O replaced
      by the derived organization when that is a non-empty string. */
  function SubjectFor(c: Config, cn: string): Subject {
    match Organization(c.app, cn)
    case Some(o) => if o != "" then c.csr.(O := o) else c.csr
    case None => c.csr
  }

  datatype KeySpec = KeySpec(algo: string, size: nat)

  /** The JSON request document handed to cfssl. */
  datatype CertRequest = CertRequest(CN: string, names: seq<Subject>, key: KeySpec)

  function Request(c: Config, cn: string): CertRequest {
    CertRequest(CommonName(c.app, cn), [SubjectFor(c, cn)], KeySpec("rsa", 2048))
  }

  /** `[name, publicIP(name), privateIP(name)]` per controller, flattened. */
  function ControllerHosts(cache: Cache, names: seq<string>): (hs: seq<Option<string>>)
    ensures |hs| == 3 * |names|
    ensures forall k :: 0 <= k < |names| ==>
              hs[3 * k] == Some(names[k])
              && hs[3 * k + 1] == PublicIP(cache, names[k])
              && hs[3 * k + 2] == PrivateIP(cache, names[k])
    decreases |names|
  {
    if |names| == 0 then []
    else
      var rest := ControllerHosts(cache, names[1..]);
      assert forall k :: 1 <= k < |names| ==> names[k] == names[1..][k - 1];
      [Some(names[0]), PublicIP(cache, names[0]), PrivateIP(cache, names[0])] + rest
  }

  /** `kubernetesHosts`. */
  function KubernetesHosts(cache: Cache, c: Config): seq<Option<string>>
    requires cache.Some?
  {
    [ForwardingIP(cache, "api"), Some("127.0.0.1"), Some("kubernetes.default")]
      + ControllerHosts(cache, Controllers(c))
  }

  /** `hostnames`: worker names get `[] || [...]`, which is `[]`; only
      `kubernetes` gets a list; everything else gets null. */
  function Hostnames(cache: Cache, c: Config, cn: string): Option<seq<Option<string>>>
    requires cache.Some?
  {
    if IsWorkerName(cn) then Some([])
    else if cn == "kubernetes" then Some(KubernetesHosts(cache, c))
    else None
  }

  /** `hostnames.join(',')`: a null entry prints as the empty string. */
  function HostList(hs: seq<Option<string>>): string {
    Join(",", seq(|hs|, i requires 0 <= i < |hs| => match hs[i] case Some(h) => h case None => ""))
  }

  /** The cfssl flags, one list entry per flag. */
  function FlagList(cache: Cache, c: Config, cn: string): (flags: seq<string>)
    requires cache.Some?
    ensures cn == "ca" ==> flags == ["-initca"]
    ensures cn != "ca" ==>
              && 2 <= |flags| <= 3
              && flags[..2] == ["-ca=files/certs/ca.pem", "-ca-key=files/certs/ca-key.pem"]
    ensures |flags| == 3 ==>
              Hostnames(cache, c, cn).Some? && flags[2] == "-hostname=" + HostList(Hostnames(cache, c, cn).value)
  {
    if cn == "ca" then ["-initca"]
    else
      var hs := Hostnames(cache, c, cn);
      ["-ca=files/certs/ca.pem", "-ca-key=files/certs/ca-key.pem"]
        + (if hs.Some? && |hs.value| > 0 then ["-hostname=" + HostList(hs.value)] else [])
  }

  /** `outputPrefix`: where `cfssljson -bare` writes the pair. */
  function OutputPrefix(cn: string): string {
    "files/" + (if IsWorkerName(cn) then cn + "/" + cn else "certs/" + cn)
  }

  /** `csrPath`: where the request document is written. */
  function CsrPath(cn: string): string {
    "files/" + (if IsWorkerName(cn) then cn else "certs") + "/" + cn + "-csr.json"
  }

  function CertificatePath(cn: string): string {
    OutputPrefix(cn) + ".pem"
  }

  function KeyPath(cn: string): string {
    OutputPrefix(cn) + "-key.pem"
  }

  function GenCert(cache: Cache, c: Config, cn: string): string
    requires cache.Some?
  {
    "cfssl gencert -config=ca-config.json -profile=kubernetes " + Join(" ", FlagList(cache, c, cn))
      + " " + CsrPath(cn)
  }

  function BundleConvert(cn: string): string {
    "cfssljson -bare " + OutputPrefix(cn)
  }

  /** The second file unlinked after issuance. */
  function CsrLeftover(cn: string): string {
    ReplaceFirst(CsrPath(cn), "-csr.json", ".csr")
  }

  /** What `create_certificate(cn)` does, in order: write the request,
      run cfssl piped into cfssljson, and unlink the two request files. */
  function CertificateSteps(cache: Cache, c: Config, cn: string): seq<Effect>
    requires cache.Some?
  {
    [ Write(CsrPath(cn)), Run(GenCert(cache, c, cn)), Run(BundleConvert(cn)),
      Remove(CsrPath(cn)), Remove(CsrLeftover(cn)) ]
  }

  /** Whether issuance goes on past an effect. The request write and the
      two commands must succeed; an unlink's callback ignores its error, so
      only an unlink that never calls back stops it. */
  function Proceeds(fx: Effect -> Settle): Effect -> Settle {
    (e: Effect) => if e.Remove? then (if fx(e) == Pending then Pending else Resolved) else fx(e)
  }

  /** The callback chain of one issuance over its steps: a request
      write, two commands and two unlinks. Only a failed write reaches
      `reject`; a command that throws does so inside the write's callback,
      and that, like an unlink that never calls back, leaves the promise
      unsettled. The throw is also an uncaught exception that ends the
      process; `Pending` is only the promise's view of it. */
  function Issue(steps: seq<Effect>, fx: Effect -> Settle): (r: Trace<Effect>)
    requires |steps| == 5 && steps[0].Write? && steps[1].Run? && steps[2].Run?
    requires steps[3].Remove? && steps[4].Remove?
    ensures r.started <= steps
    ensures 0 < |r.started| && r.started[0] == steps[0]
    ensures forall i :: 0 <= i < |r.started| - 1 ==> Proceeds(fx)(r.started[i]) == Resolved
    ensures r.outcome == Rejected <==> fx(steps[0]) == Rejected
    ensures r.outcome == Resolved <==>
              && fx(steps[0]) == Resolved && fx(steps[1]) == Resolved && fx(steps[2]) == Resolved
              && fx(steps[3]) != Pending && fx(steps[4]) != Pending
    ensures r.outcome == Resolved ==> r.started == steps
    ensures r.outcome != Resolved ==> Proceeds(fx)(r.started[|r.started| - 1]) != Resolved
  {
    var go := Proceeds(fx);
    var t := Chain(steps, go);
    assert t.started[0] == steps[0];
    assert go(steps[0]) == fx(steps[0]) && go(steps[1]) == fx(steps[1]) && go(steps[2]) == fx(steps[2]);
    assert go(steps[3]) == Resolved <==> fx(steps[3]) != Pending;
    assert go(steps[4]) == Resolved <==> fx(steps[4]) != Pending;
    assert (forall i :: 0 <= i < 5 ==> go(steps[i]) == Resolved)
       <==> go(steps[0]) == Resolved && go(steps[1]) == Resolved && go(steps[2]) == Resolved
            && go(steps[3]) == Resolved && go(steps[4]) == Resolved;
    Trace(t.started, if t.outcome == Rejected && 1 < |t.started| then Pending else t.outcome)
  }

  /** `create_certificate(cn)`: its steps as one callback chain. */
  function Certificate(cache: Cache, c: Config, cn: string, fx: Effect -> Settle): (r: Trace<Effect>)
    requires cache.Some?
    ensures r.started <= CertificateSteps(cache, c, cn)
    ensures 0 < |r.started| && r.started[0] == Write(CsrPath(cn))
    ensures forall i :: 0 <= i < |r.started| - 1 ==> Proceeds(fx)(r.started[i]) == Resolved
    ensures r.outcome == Rejected <==> fx(Write(CsrPath(cn))) == Rejected
    ensures r.outcome == Resolved <==>
              && fx(Write(CsrPath(cn))) == Resolved
              && fx(Run(GenCert(cache, c, cn))) == Resolved && fx(Run(BundleConvert(cn))) == Resolved
              && fx(Remove(CsrPath(cn))) != Pending && fx(Remove(CsrLeftover(cn))) != Pending
    ensures r.outcome == Resolved ==> r.started == CertificateSteps(cache, c, cn)
    ensures r.outcome != Resolved ==> Proceeds(fx)(r.started[|r.started| - 1]) != Resolved
  {
    Issue(CertificateSteps(cache, c, cn), fx)
  }

  /** The subjects every cluster issues, before its workers. */
  const FixedSubjects: seq<string> :=
    ["ca", "kube-controller-manager", "kube-proxy", "kubernetes", "kube-scheduler", "admin", "service-account"]

  /** The subjects `create_certificates` issues, in launch order. */
  function CertificateSubjects(c: Config): seq<string> {
    FixedSubjects + Workers(c)
  }

  /** `create_certificates`: every issuance starts at once (there is no
      wait for the CA), each settling as `issue` says. When all of them
      resolve the step resolves; when one rejects, `Promise.all` rejects but
      nothing passes that on to the outer promise, which therefore never
      settles. */
  function CreateCertificates(c: Config, issue: string -> Settle): (r: Trace<string>)
    ensures r.started == CertificateSubjects(c)
    ensures r.outcome != Rejected
    ensures r.outcome == Resolved <==>
              forall i :: 0 <= i < |CertificateSubjects(c)| ==> issue(CertificateSubjects(c)[i]) == Resolved
  {
    AllOrPending(CertificateSubjects(c), issue)
  }

  /** How each subject's `create_certificate` settles: the oracle the
      certificates step runs `create_certificates` with. */
  function Issuances(cache: Cache, c: Config, fx: Effect -> Settle): string -> Settle
    requires cache.Some?
  {
    cn => Certificate(cache, c, cn, fx).outcome
  }

  // ---------------------------------------------------------------------
  // Properties

  /** A name without a `w` is not a worker name. */
  lemma NotWorkerName(cn: string)
    requires 'w' !in cn
    ensures !IsWorkerName(cn)
  {
    if IsWorkerName(cn) {
      ContainsChar(cn, "worker", 0);
    }
  }

  /** A name without a `k`, or without a `-`, is not a `kube-` name. */
  lemma NotKubeName(cn: string)
    requires 'k' !in cn || '-' !in cn
    ensures !IsKubeName(cn)
  {
    if IsKubeName(cn) {
      ContainsChar(cn, "kube-", 0);
      ContainsChar(cn, "kube-", 4);
    }
  }

  /** The CN rule in priority order: worker names, then `kube-` names, then
      the CA, then the name itself. */
  lemma CommonNameRule(app: string, cn: string)
    ensures IsWorkerName(cn) ==> CommonName(app, cn) == "system:node:" + cn
    ensures !IsWorkerName(cn) && IsKubeName(cn) ==> CommonName(app, cn) == "system:" + cn
    ensures cn == "ca" ==> CommonName(app, cn) == Upper(app)
    ensures !IsWorkerName(cn) && !IsKubeName(cn) && cn != "ca" ==> CommonName(app, cn) == cn
  {
    if cn == "ca" {
      ShortNoContains(cn, "worker");
      ShortNoContains(cn, "kube-");
    }
  }

  /** Reads a subject name back from a CN by removing the `system:node:`
      or `system:` marker. */
  function SubjectOfCommonName(cn: string): string {
    if StartsWith(cn, "system:node:") then cn[12..]
    else if StartsWith(cn, "system:") then cn[7..]
    else cn
  }

  /** Apart from the CA, the CN identifies its subject: the marker the rule
      adds can be taken off again, so distinct subjects get distinct CNs. */
  lemma CommonNameIdentifiesSubject(app: string, cn: string)
    requires cn != "ca" && !StartsWith(cn, "system:") && !StartsWith(cn, "node:")
    ensures SubjectOfCommonName(CommonName(app, cn)) == cn
  {
    var full := CommonName(app, cn);
    if IsWorkerName(cn) {
      assert full[..12] == "system:node:";
      assert full[12..] == cn;
    } else if IsKubeName(cn) {
      NodeMarkerAfterSystem(cn);
      assert full[..7] == "system:";
      assert full[7..] == cn;
    }
  }

  /** `system:` followed by a name carries the worker marker only when the
      name starts with `node:`. */
  lemma NodeMarkerAfterSystem(x: string)
    ensures StartsWith("system:" + x, "system:node:") ==> StartsWith(x, "node:")
  {
    var s := "system:" + x;
    if StartsWith(s, "system:node:") {
      assert x[..5] == s[7..12] == "system:node:"[7..12];
    }
  }

  /** The organization rule in priority order. */
  lemma OrganizationRule(c: Config, cn: string)
    ensures IsWorkerName(cn) ==> SubjectFor(c, cn).O == "system:nodes"
    ensures !IsWorkerName(cn) && (cn == "ca" || cn == "service-account") && c.app != "" ==>
              SubjectFor(c, cn).O == Upper(c.app)
    ensures !IsWorkerName(cn) && TableOrganization(cn).Some? ==>
              SubjectFor(c, cn).O == TableOrganization(cn).value
    ensures !IsWorkerName(cn) && cn != "ca" && cn != "service-account" && TableOrganization(cn).None? ==>
              SubjectFor(c, cn).O == c.csr.O
    ensures SubjectFor(c, cn) == c.csr.(O := SubjectFor(c, cn).O)
  {
    if c.app != "" {
      assert |Upper(c.app)| > 0;
    }
  }

  /** Every request carries one subject entry and an RSA-2048 key. */
  lemma RequestShape(c: Config, cn: string)
    ensures |Request(c, cn).names| == 1
    ensures Request(c, cn).key == KeySpec("rsa", 2048)
    ensures Request(c, cn).names[0].C == c.csr.C && Request(c, cn).names[0].L == c.csr.L
         && Request(c, cn).names[0].OU == c.csr.OU && Request(c, cn).names[0].ST == c.csr.ST
  {
  }

  /** How the source classifies the fixed subject names: only the three
      `kube-` components are `kube-` names, and none is a worker name. */
  lemma FixedSubjectClasses()
    ensures IsKubeName("kube-proxy") && !IsWorkerName("kube-proxy")
    ensures IsKubeName("kube-controller-manager") && !IsWorkerName("kube-controller-manager")
    ensures IsKubeName("kube-scheduler") && !IsWorkerName("kube-scheduler")
    ensures !IsKubeName("admin") && !IsWorkerName("admin")
    ensures !IsKubeName("kubernetes") && !IsWorkerName("kubernetes")
    ensures !IsKubeName("ca") && !IsWorkerName("ca")
    ensures !IsKubeName("service-account") && !IsWorkerName("service-account")
  {
    KubeComponentClass("kube-proxy");
    KubeComponentClass("kube-controller-manager");
    KubeComponentClass("kube-scheduler");
    AdminClass();
    NotWorkerName("kubernetes");
    NotKubeName("kubernetes");
    CaClass();
    NotWorkerName("service-account");
    NotKubeName("service-account");
  }

  lemma AdminClass()
    ensures !IsKubeName("admin") && !IsWorkerName("admin")
  {
    ShortNoContains("admin", "worker");
    NotKubeName("admin");
  }

  lemma CaClass()
    ensures !IsKubeName("ca") && !IsWorkerName("ca")
  {
    ShortNoContains("ca", "worker");
    ShortNoContains("ca", "kube-");
  }

  /** A `kube-` prefixed name without a `w` is a `kube-` name and not a
      worker name. */
  lemma KubeComponentClass(cn: string)
    requires StartsWith(cn, "kube-") && 'w' !in cn
    ensures IsKubeName(cn) && !IsWorkerName(cn)
  {
    StartsWithContains(cn, "kube-");
    NotWorkerName(cn);
  }

  /** The `kube-` components get `system:` CNs and the organizations of
      the fixed table, under any configuration. */
  lemma KubeProxyRequest(c: Config)
    ensures Request(c, "kube-proxy")
         == CertRequest("system:kube-proxy", [c.csr.(O := "system:node-proxier")], KeySpec("rsa", 2048))
  {
    FixedSubjectClasses();
  }

  lemma ControllerManagerRequest(c: Config)
    ensures Request(c, "kube-controller-manager")
         == CertRequest("system:kube-controller-manager", [c.csr.(O := "system:kube-controller-manager")], KeySpec("rsa", 2048))
  {
    var cn := "kube-controller-manager";
    assert CommonName(c.app, cn) == "system:kube-controller-manager" by { FixedSubjectClasses(); }
    assert SubjectFor(c, cn) == c.csr.(O := "system:kube-controller-manager") by { FixedSubjectClasses(); }
  }

  lemma SchedulerRequest(c: Config)
    ensures Request(c, "kube-scheduler")
         == CertRequest("system:kube-scheduler", [c.csr.(O := "system:kube-scheduler")], KeySpec("rsa", 2048))
  {
    var cn := "kube-scheduler";
    assert Request(c, cn).CN == "system:kube-scheduler" by { FixedSubjectClasses(); }
    assert Request(c, cn).names == [c.csr.(O := "system:kube-scheduler")] by { FixedSubjectClasses(); }
  }

  /** `admin` keeps its name as CN and gets `system:masters`. */
  lemma AdminRequest(c: Config)
    ensures Request(c, "admin") == CertRequest("admin", [c.csr.(O := "system:masters")], KeySpec("rsa", 2048))
  {
    AdminClass();
  }

  /** `kubernetes` keeps its name and falls back to the configured O. */
  lemma KubernetesRequest(c: Config)
    ensures Request(c, "kubernetes") == CertRequest("kubernetes", [c.csr], KeySpec("rsa", 2048))
  {
    FixedSubjectClasses();
  }

  /** The CA's CN and O are the uppercased application name; with the
      shipped application `n2` that is `N2`. */
  lemma CaRequest(c: Config)
    requires c.app != ""
    ensures Request(c, "ca") == CertRequest(Upper(c.app), [c.csr.(O := Upper(c.app))], KeySpec("rsa", 2048))
    ensures c.app == "n2" ==> Request(c, "ca").CN == "N2"
  {
    assert |Upper(c.app)| > 0;
    CaClass();
    if c.app == "n2" {
      assert UpperChar('n') == 'N';
    }
  }

  /** The service account keeps its name as CN and carries the uppercased
      application name as O. */
  lemma ServiceAccountRequest(c: Config)
    requires c.app != ""
    ensures Request(c, "service-account")
         == CertRequest("service-account", [c.csr.(O := Upper(c.app))], KeySpec("rsa", 2048))
  {
    assert |Upper(c.app)| > 0;
    FixedSubjectClasses();
  }

  /** Every worker name gets a `system:node:` CN and `system:nodes`, e.g.
      `worker-3` gets `system:node:worker-3`. */
  lemma WorkerRequest(c: Config, w: string)
    requires IsWorkerName(w)
    ensures Request(c, w) == CertRequest("system:node:" + w, [c.csr.(O := "system:nodes")], KeySpec("rsa", 2048))
    ensures w == "worker-3" ==> Request(c, w).CN == "system:node:worker-3"
  {
  }

  /** Issuance flags: the CA alone is self-signed; every other subject is
      signed with the CA pair; only `kubernetes` gets a hostname list, and
      worker names never do. */
  lemma FlagRule(cache: Cache, c: Config, cn: string)
    requires cache.Some?
    ensures cn != "ca" ==> (|FlagList(cache, c, cn)| == 3 <==> cn == "kubernetes")
    ensures IsWorkerName(cn) ==> FlagList(cache, c, cn)
                                 == ["-ca=files/certs/ca.pem", "-ca-key=files/certs/ca-key.pem"]
  {
    if IsWorkerName(cn) {
      ShortNoContains("ca", "worker");
    }
    if cn == "kubernetes" {
      NotWorkerName("kubernetes");
    }
  }

  /** The `kubernetes` subject's hostname list: the API forwarding address,
      the loopback address and `kubernetes.default`, then each controller's
      name, public address and private address; with no controllers only
      the first three. */
  lemma KubernetesHostnames(cache: Cache, c: Config)
    requires cache.Some?
    ensures Hostnames(cache, c, "kubernetes") == Some(KubernetesHosts(cache, c))
    ensures var hs := KubernetesHosts(cache, c);
            && |hs| == 3 + 3 * Count(c, Controller)
            && hs[..3] == [ForwardingIP(cache, "api"), Some("127.0.0.1"), Some("kubernetes.default")]
            && forall k :: 0 <= k < Count(c, Controller) ==>
                 hs[3 + 3 * k] == Some(Controllers(c)[k])
                 && hs[3 + 3 * k + 1] == PublicIP(cache, Controllers(c)[k])
                 && hs[3 + 3 * k + 2] == PrivateIP(cache, Controllers(c)[k])
  {
    NotWorkerName("kubernetes");
  }

  /** The request sits beside the issued pair: its path is the output
      prefix followed by `-csr.json`. */
  lemma CsrBesidePair(cn: string)
    ensures CsrPath(cn) == OutputPrefix(cn) + "-csr.json"
  {
  }

  /** `-csr.json` cannot start inside a dot-free `p` in `p + "-csr.json"`:
      fully inside `p` it would need a dot there, and straddling the end it
      would need a second dash in `-csr.json`. */
  lemma NoEarlyCsrSuffix(p: string, i: nat)
    requires NoDot(p) && i < |p|
    ensures !OccursAt(p + "-csr.json", "-csr.json", i)
  {
    var s := p + "-csr.json";
    if i + 9 <= |p| {
      assert s[i + 4] == p[i + 4];
    } else {
      assert s[|p|] == '-';
    }
  }

  /** In a dot-free `p`, the first `-csr.json` of `p + "-csr.json"` is the
      suffix, so replacing it gives `p + ".csr"`. */
  lemma ReplaceCsrSuffix(p: string)
    requires NoDot(p)
    ensures ReplaceFirst(p + "-csr.json", "-csr.json", ".csr") == p + ".csr"
  {
    var s := p + "-csr.json";
    forall i | 0 <= i < |p|
      ensures !OccursAt(s, "-csr.json", i)
    {
      NoEarlyCsrSuffix(p, i);
    }
    assert s[|p|..|p| + 9] == "-csr.json";
    FirstMatchFinds(s, "-csr.json", 0, |p|);
    assert s[..|p|] == p;
    assert s[|p| + 9..] == "";
  }

  /** With no `.` in the name, the second unlink removes exactly the `.csr`
      file `cfssljson -bare` leaves beside the pair. */
  lemma CsrLeftoverIsBundleCsr(cn: string)
    requires NoDot(cn)
    ensures CsrLeftover(cn) == OutputPrefix(cn) + ".csr"
  {
    var p := OutputPrefix(cn);
    assert NoDot(p) by {
      if IsWorkerName(cn) {
        assert p == "files/" + cn + "/" + cn;
      } else {
        assert p == "files/certs/" + cn;
      }
    }
    assert CsrPath(cn) == p + "-csr.json";
    ReplaceCsrSuffix(p);
  }

  /** An unlink's error never matters: oracles that differ only in whether
      the unlinks fail give the same issuance. */
  lemma IssuanceIgnoresUnlinkErrors(cache: Cache, c: Config, cn: string, fx: Effect -> Settle, gx: Effect -> Settle)
    requires cache.Some?
    requires fx(Write(CsrPath(cn))) == gx(Write(CsrPath(cn)))
    requires fx(Run(GenCert(cache, c, cn))) == gx(Run(GenCert(cache, c, cn)))
    requires fx(Run(BundleConvert(cn))) == gx(Run(BundleConvert(cn)))
    requires (fx(Remove(CsrPath(cn))) == Pending) == (gx(Remove(CsrPath(cn))) == Pending)
    requires (fx(Remove(CsrLeftover(cn))) == Pending) == (gx(Remove(CsrLeftover(cn))) == Pending)
    ensures Certificate(cache, c, cn, fx) == Certificate(cache, c, cn, gx)
  {
    var steps := CertificateSteps(cache, c, cn);
    assert steps[0] == Write(CsrPath(cn)) && steps[3] == Remove(CsrPath(cn)) && steps[4] == Remove(CsrLeftover(cn));
    assert steps[1] == Run(GenCert(cache, c, cn)) && steps[2] == Run(BundleConvert(cn));
    IssueAgrees(steps, fx, gx);
  }

  /** Two oracles under which every step goes on alike give the same
      issuance. */
  lemma IssueAgrees(steps: seq<Effect>, fx: Effect -> Settle, gx: Effect -> Settle)
    requires |steps| == 5 && steps[0].Write? && steps[1].Run? && steps[2].Run?
    requires steps[3].Remove? && steps[4].Remove?
    requires fx(steps[0]) == gx(steps[0]) && fx(steps[1]) == gx(steps[1]) && fx(steps[2]) == gx(steps[2])
    requires (fx(steps[3]) == Pending) == (gx(steps[3]) == Pending)
    requires (fx(steps[4]) == Pending) == (gx(steps[4]) == Pending)
    ensures Issue(steps, fx) == Issue(steps, gx)
  {
    forall i | 0 <= i < |steps|
      ensures Proceeds(fx)(steps[i]) == Proceeds(gx)(steps[i])
    {
    }
    ChainSameOracle(steps, Proceeds(fx), Proceeds(gx));
  }

  /** A cfssl call that throws once the request is written leaves the
      issuance unsettled, with nothing after it started. */
  lemma ThrowingCfsslNeverSettles(cache: Cache, c: Config, cn: string, fx: Effect -> Settle)
    requires cache.Some?
    requires fx(Write(CsrPath(cn))) == Resolved && fx(Run(GenCert(cache, c, cn))) == Rejected
    ensures Certificate(cache, c, cn, fx) == Trace([Write(CsrPath(cn)), Run(GenCert(cache, c, cn))], Pending)
  {
  }
}

=== FILE: provision.dfy ===
/** The provider and host command lists: network, forwarding and firewall
    rules, instance creation with per-worker pod ranges, the teardown list
    and its one-at-a-time executor, the per-instance template renders, the
    file distribution and the OS update. Every command line goes through
    the `compute` wrapper. */
module Provision {
  import opened Text
  import opened Cluster
  import opened Cloud
  import opened Exec
  import opened Pki
  import opened Contexts
  import opened Render
  import opened Bootstrap

  function Port(n: nat): string {
    NatToString(n)
  }

  // ---------------------------------------------------------------------
  // Network and rules

  /** `create_network`. */
  function NetworkSubcommand(c: Config): string {
    "networks create " + c.app + " "
  }

  /** `create_network`: one provider command. */
  function CreateNetwork(c: Config, fx: Effect -> Settle): (r: Trace<Effect>)
    ensures r.started == [Provider(NetworkSubcommand(c))]
    ensures r.outcome == fx(Provider(NetworkSubcommand(c)))
  {
    Chain([Provider(NetworkSubcommand(c))], fx)
  }

  /** The firewall's port list: ssh, health, api, etcd peer, etcd client. */
  function ControllerPorts(c: Config): string {
    Join(",", ["tcp:" + Port(c.ports.ssh), "tcp:" + Port(c.ports.health), "tcp:" + Port(c.ports.api),
               "tcp:" + Port(c.ports.etcdPeer), "tcp:" + Port(c.ports.etcdClient)])
  }

  /** The live provider sub-commands of `create_rules`, in order; the
      `0 && …` steps never run and contribute nothing. */
  function RuleSubcommands(c: Config): (cmds: seq<string>)
    ensures |cmds| == 5
  {
    [ "http-health-checks create " + c.app + " --port=" + Port(c.ports.health) + " --request-path=/healthz",
      "target-pools create " + c.app + " --http-health-check=" + c.app,
      "forwarding-rules create health " + "--region=" + c.region + " " + " --load-balancing-scheme=EXTERNAL "
        + "  --ip-protocol=TCP" + " --target-pool " + c.app + " " + " --ports=" + Port(c.ports.health),
      "forwarding-rules create api " + "--region=" + c.region + " " + "  --ip-protocol=TCP "
        + " --load-balancing-scheme=EXTERNAL " + " --target-pool " + c.app + " " + " --ports=" + Port(c.ports.api),
      "firewall-rules create " + c.app + " --network=" + c.app + " " + "--allow " + ControllerPorts(c) ]
  }

  /** A provider sub-command as the effect that runs it. */
  function Provider(sub: string): Effect {
    Run(Compute(sub))
  }

  function Providers(subs: seq<string>): (fx: seq<Effect>)
    ensures |fx| == |subs|
    ensures forall i :: 0 <= i < |subs| ==> fx[i] == Provider(subs[i])
  {
    seq(|subs|, i requires 0 <= i < |subs| => Provider(subs[i]))
  }

  /** `create_rules`: the five commands and then the status write, one
      after another. */
  function CreateRules(c: Config, fx: Effect -> Settle): (r: Trace<Effect>)
    ensures r.started <= Providers(RuleSubcommands(c)) + [Write(StatusPath)]
    ensures forall i :: 0 <= i < |r.started| - 1 ==> fx(r.started[i]) == Resolved
    ensures r.outcome == Resolved <==>
              (forall i :: 0 <= i < 5 ==> fx(Provider(RuleSubcommands(c)[i])) == Resolved)
              && fx(Write(StatusPath)) == Resolved
    ensures r.outcome == Resolved ==> r.started == Providers(RuleSubcommands(c)) + [Write(StatusPath)]
    ensures r.outcome != Resolved ==> 0 < |r.started| && fx(r.started[|r.started| - 1]) == r.outcome
  {
    var items := Providers(RuleSubcommands(c)) + [Write(StatusPath)];
    assert forall i :: 0 <= i < 5 ==> items[i] == Provider(RuleSubcommands(c)[i]);
    assert items[5] == Write(StatusPath);
    Chain(items, fx)
  }

  // ---------------------------------------------------------------------
  // Instances

  /** The pod address range of the worker with 1-based ordinal `n`. */
  function PodCidr(n: nat): string {
    "10.200." + NatToString(n) + ".0/24"
  }

  function MachineConf(c: Config): string {
    "--machine-type=" + c.machineType + " --network=" + c.app
  }

  function ImageConf(c: Config): string {
    "--image-project=" + c.imageProject + " --image-family=" + c.imageFamily
  }

  /** The label and tag of a role; the source derives them from the role
      word it passes in. */
  function LabelConf(role: Role): string {
    "--labels=role=" + RoleWord(role) + " --tags=" + RoleWord(role)
  }

  /** The pod range metadata, for workers only. */
  function Meta(role: Role, n: nat): string {
    if role == Worker then "--metadata pod-cidr=" + PodCidr(n) else ""
  }

  /** Everything of `conf(type, num)` after the metadata. */
  function ConfTail(c: Config, role: Role): string {
    " --can-ip-forward " + MachineConf(c) + " " + ImageConf(c) + " " + " --no-restart-on-failure" + " " + LabelConf(role)
  }

  /** `conf(type, num)`. */
  function InstanceConf(c: Config, role: Role, n: nat): string {
    " " + Meta(role, n) + ConfTail(c, role)
  }

  /** All controllers are created by one command. */
  function ControllerCreate(c: Config): string {
    "instances create " + "--zone=" + c.zone + " " + Join(" ", Controllers(c)) + " " + InstanceConf(c, Controller, 0)
  }

  function AddInstances(c: Config): string {
    "target-pools add-instances " + c.app + " --instances=" + Join(",", Controllers(c))
  }

  function WorkerCreate(c: Config, name: string, n: nat): string {
    "instances create " + name + " " + "--zone=" + c.zone + " " + InstanceConf(c, Worker, n)
  }

  /** One command per worker, with the worker's index + 1 as pod range. */
  function WorkerCreates(c: Config): (cmds: seq<string>)
    ensures |cmds| == |Workers(c)|
    ensures forall i :: 0 <= i < |Workers(c)| ==> cmds[i] == WorkerCreate(c, Workers(c)[i], i + 1)
  {
    seq(|Workers(c)|, i requires 0 <= i < |Workers(c)| => WorkerCreate(c, Workers(c)[i], i + 1))
  }

  /** The controller command and the pool membership, run in turn before
      the workers. */
  function InstanceHead(c: Config): seq<Effect> {
    [Provider(ControllerCreate(c)), Provider(AddInstances(c))]
  }

  /** Every worker's creation command resolved. */
  predicate WorkersCreated(c: Config, fx: Effect -> Settle) {
    forall i :: 0 <= i < |Providers(WorkerCreates(c))| ==> fx(Providers(WorkerCreates(c))[i]) == Resolved
  }

  /** `create_instances`: the controller command, then the pool
      membership, then every worker at once, then the status write. */
  function CreateInstances(c: Config, fx: Effect -> Settle): (r: Trace<Effect>)
    ensures var head := Chain(InstanceHead(c), fx);
            && (head.outcome != Resolved ==> r == head)
            && (head.outcome == Resolved ==> head.started + Providers(WorkerCreates(c)) <= r.started)
    ensures r.outcome == Resolved <==>
              && fx(Provider(ControllerCreate(c))) == Resolved && fx(Provider(AddInstances(c))) == Resolved
              && WorkersCreated(c, fx)
              && fx(Write(StatusPath)) == Resolved
    ensures Write(StatusPath) in r.started ==>
              && fx(Provider(ControllerCreate(c))) == Resolved && fx(Provider(AddInstances(c))) == Resolved
              && WorkersCreated(c, fx)
    ensures fx(Provider(ControllerCreate(c))) == Resolved && fx(Provider(AddInstances(c))) == Resolved ==>
              (r.started == InstanceHead(c) + Providers(WorkerCreates(c))
               || r.started == InstanceHead(c) + Providers(WorkerCreates(c)) + [Write(StatusPath)])
    ensures fx(Provider(ControllerCreate(c))) == Resolved && fx(Provider(AddInstances(c))) == Resolved ==>
              (r.started == InstanceHead(c) + Providers(WorkerCreates(c)) + [Write(StatusPath)] <==> WorkersCreated(c, fx))
  {
    var head := InstanceHead(c);
    var workers := Providers(WorkerCreates(c));
    StatusWriteIsNoProvider(WorkerCreates(c));
    assert Write(StatusPath) !in head;
    Staged(head, workers, Write(StatusPath), fx)
  }

  /** The status write is not among the provider commands. */
  lemma StatusWriteIsNoProvider(subs: seq<string>)
    ensures Write(StatusPath) !in Providers(subs)
  {
  }

  // ---------------------------------------------------------------------
  // Teardown

  /** The `down` list, in the order it runs; the network goes last. */
  function DownSubcommands(c: Config): (cmds: seq<string>)
    ensures |cmds| == 18
  {
    [ "firewall-rules delete " + c.app,
      "forwarding-rules delete api --region=" + c.region,
      "forwarding-rules delete health --region=" + c.region,
      "target-http-proxies delete health",
      "target-https-proxies delete api",
      "target-tcp-proxies delete " + c.app,
      "target-tcp-proxies delete health",
      "target-tcp-proxies delete api",
      "ssl-certificates delete " + c.app,
      "url-maps delete " + c.app,
      "backend-services delete api --global",
      "backend-services delete health --global",
      "instance-groups unmanaged delete " + c.app,
      "target-pools delete " + c.app,
      "instances delete " + Join(" ", InstanceNames(c)),
      "health-checks delete " + c.app,
      "http-health-checks delete " + c.app,
      "networks delete " + c.app ]
  }

  /** `down`: strictly one command at a time; the first that does not
      resolve ends the teardown with its outcome and nothing after it
      runs. */
  function Teardown(c: Config, fx: Effect -> Settle): (r: Trace<Effect>)
    ensures r.started <= Providers(DownSubcommands(c))
    ensures r.outcome == Resolved <==> forall i :: 0 <= i < 18 ==> fx(Provider(DownSubcommands(c)[i])) == Resolved
    ensures forall k :: 0 <= k < 18 && fx(Provider(DownSubcommands(c)[k])) != Resolved ==> |r.started| <= k + 1
    ensures |r.started| == 18 ==> forall i :: 0 <= i < 17 ==> fx(Provider(DownSubcommands(c)[i])) == Resolved
    ensures r.outcome == Resolved ==> r.started == Providers(DownSubcommands(c))
    ensures r.outcome != Resolved ==> 0 < |r.started| && fx(r.started[|r.started| - 1]) == r.outcome
    ensures forall i :: 0 <= i < |r.started| - 1 ==> fx(r.started[i]) == Resolved
  {
    Chain(Providers(DownSubcommands(c)), fx)
  }

  /** The teardown as the source runs it: a callback that shifts the next
      command off the list and recurses on success. */
  method RunTeardown(c: Config, fx: Effect -> Settle) returns (started: seq<Effect>, outcome: Settle)
    ensures started == Teardown(c, fx).started && outcome == Teardown(c, fx).outcome
  {
    started, outcome := RunSequentially(Providers(DownSubcommands(c)), fx);
    ChainUnique(Providers(DownSubcommands(c)), fx, started, outcome);
  }

  // ---------------------------------------------------------------------
  // Templates per instance

  const ControllerFiles: seq<string> := [
    "etcd.service", "kube-apiserver.service", "kube-controller-manager.service", "kube-scheduler.service",
    "encryption-config.yaml", "kube-scheduler.yaml", "kube-proxy-rbac.yaml", "kubelet.yaml",
    "kubernetes.yaml", "bootstrappers.yaml", "healthz.conf", "controller.sh"]

  const WorkerFiles: seq<string> := [
    "10-bridge.conf", "99-loopback.conf", "config.toml", "containerd.service", "daemon.json",
    "kubelet-config.yaml", "kubelet.service", "kube-proxy-config.yaml", "kube-proxy.service", "worker.sh"]

  function RoleFiles(role: Role): seq<string> {
    match role
    case Controller => ControllerFiles
    case Worker => WorkerFiles
  }

  /** The renders of one instance: every file of its role, from the
      file's template into the instance's directory. */
  function InstanceRenders(inst: string, files: seq<string>): (fx: seq<Effect>)
    ensures |fx| == |files|
    ensures forall i :: 0 <= i < |files| ==>
              fx[i] == Render("ejs/" + files[i] + ".ejs", "files/" + inst + "/" + files[i])
  {
    var fx := seq(|files|, i requires 0 <= i < |files| => RenderFile(files[i], inst + "/" + files[i]));
    assert forall i :: 0 <= i < |files| ==>
             "files/" + (inst + "/" + files[i]) == "files/" + inst + "/" + files[i];
    fx
  }

  function RoleRenders(names: seq<string>, files: seq<string>): (fx: seq<Effect>)
    ensures |fx| == |names| * |files|
    decreases |names|
  {
    if |names| == 0 then []
    else InstanceRenders(names[0], files) + RoleRenders(names[1..], files)
  }

  /** The renders `create_configurations` launches: every controller's
      files, then every worker's. */
  function ConfigurationRenders(c: Config): seq<Effect> {
    RoleRenders(Controllers(c), ControllerFiles) + RoleRenders(Workers(c), WorkerFiles)
  }

  // ---------------------------------------------------------------------
  // Distribution and update

  /** A certificate and its key, as uploaded. */
  function CertUploads(cert: string): seq<string> {
    ["files/certs/" + cert + ".pem", "files/certs/" + cert + "-key.pem"]
  }

  function KubeconfigUpload(name: string): string {
    "files/" + name + ".kubeconfig"
  }

  /** What `scp` uploads to a controller: three certificate pairs, three
      kubeconfigs, the controller's own directory and every worker's
      bootstrap secret and configmap (by glob). */
  function ControllerUploads(inst: string): (us: seq<string>)
    ensures |us| == 12
  {
    CertUploads("ca") + CertUploads("kubernetes") + CertUploads("service-account")
      + [KubeconfigUpload("kube-controller-manager"), KubeconfigUpload("kube-scheduler"), KubeconfigUpload("admin")]
      + ["files/" + inst + "/*", SecretGlob, ConfigmapGlob]
  }

  const SecretGlob := "files/bootstrap_secret-worker*.yaml"
  const ConfigmapGlob := "files/bootstrap_configmap-worker*.yaml"

  /** What `scp` uploads to a worker. */
  function WorkerUploads(inst: string): (us: seq<string>)
    ensures |us| == 4
  {
    [ "files/" + (inst + "/" + KubeletBootstrap), KubeconfigUpload("kube-proxy"),
      CaUpload, "files/" + inst + "/*" ]
  }

  const CaUpload := "files/certs/ca.pem"

  function Upload(files: seq<string>, inst: string): string {
    "scp " + Join(" ", files) + " " + inst + ":~/"
  }

  /** `distribute`: one upload per controller, then one per worker, all at
      once. */
  function DistributeSubcommands(c: Config): (cmds: seq<string>)
    ensures |cmds| == |InstanceNames(c)|
    ensures forall i :: 0 <= i < |Controllers(c)| ==> cmds[i] == Upload(ControllerUploads(Controllers(c)[i]), Controllers(c)[i])
    ensures forall i :: 0 <= i < |Workers(c)| ==>
              cmds[|Controllers(c)| + i] == Upload(WorkerUploads(Workers(c)[i]), Workers(c)[i])
  {
    var cs := seq(|Controllers(c)|, i requires 0 <= i < |Controllers(c)| =>
                Upload(ControllerUploads(Controllers(c)[i]), Controllers(c)[i]));
    var ws := seq(|Workers(c)|, i requires 0 <= i < |Workers(c)| =>
                Upload(WorkerUploads(Workers(c)[i]), Workers(c)[i]));
    cs + ws
  }

  /** `update_os`: each instance runs its role's script over ssh; all at
      once. */
  function UpdateSubcommands(c: Config): (cmds: seq<string>)
    ensures |cmds| == |InstanceNames(c)|
    ensures forall i :: 0 <= i < |InstanceNames(c)| ==>
              cmds[i] == "ssh " + InstanceNames(c)[i] + " -- -t -- sudo bash "
                         + RoleWord(if i < |Controllers(c)| then Controller else Worker) + ".sh"
  {
    var script := (inst: string, role: Role) => "ssh " + inst + " -- -t -- sudo bash " + RoleWord(role) + ".sh";
    var cs := seq(|Controllers(c)|, i requires 0 <= i < |Controllers(c)| => script(Controllers(c)[i], Controller));
    var ws := seq(|Workers(c)|, i requires 0 <= i < |Workers(c)| => script(Workers(c)[i], Worker));
    cs + ws
  }

  /** `distribute`: every upload starts at once. */
  function Distribute(c: Config, fx: Effect -> Settle): (r: Trace<Effect>)
    ensures |r.started| == |InstanceNames(c)|
    ensures forall i :: 0 <= i < |Controllers(c)| ==>
              r.started[i] == Provider(Upload(ControllerUploads(Controllers(c)[i]), Controllers(c)[i]))
    ensures forall i :: 0 <= i < |Workers(c)| ==>
              r.started[|Controllers(c)| + i] == Provider(Upload(WorkerUploads(Workers(c)[i]), Workers(c)[i]))
    ensures r.outcome == Resolved <==>
              forall i :: 0 <= i < |InstanceNames(c)| ==> fx(Provider(DistributeSubcommands(c)[i])) == Resolved
  {
    All(Providers(DistributeSubcommands(c)), fx)
  }

  /** `update_os`: every instance's script starts at once. */
  function UpdateOs(c: Config, fx: Effect -> Settle): (r: Trace<Effect>)
    ensures |r.started| == |InstanceNames(c)|
    ensures r.started == Providers(UpdateSubcommands(c))
    ensures r.outcome == Rejected <==>
              exists i :: 0 <= i < |InstanceNames(c)| && fx(Provider(UpdateSubcommands(c)[i])) == Rejected
    ensures r.outcome == Resolved <==>
              forall i :: 0 <= i < |InstanceNames(c)| ==> fx(Provider(UpdateSubcommands(c)[i])) == Resolved
  {
    All(Providers(UpdateSubcommands(c)), fx)
  }

  // ---------------------------------------------------------------------
  // Configurations

  /** The four stages of `create_configurations`, each waiting for the
      previous one. */
  datatype ConfigStage = StoreStage | TemplateStage | ContextStage | BootstrapStage

  const ConfigStages: seq<ConfigStage> := [StoreStage, TemplateStage, ContextStage, BootstrapStage]

  /** How a stage settles. The status store keeps or refreshes the cache
      from probe `p`; the contexts are built from the cache it leaves. */
  function ConfigStageOutcome(cache: Cache, c: Config, p: Probe, fx: Effect -> Settle, st: ConfigStage): Settle {
    match st
    case StoreStage => fx(Write(StatusPath))
    case TemplateStage => All(ConfigurationRenders(c), fx).outcome
    case ContextStage => CreateContexts(StoreStatus(cache, false, p, true).cache, c, fx).outcome
    case BootstrapStage => All(Workers(c), w => CreateBootstrap(w, fx).outcome).outcome
  }

  /** The stages' outcomes as the oracle of their chain. */
  function StageSettle(cache: Cache, c: Config, p: Probe, fx: Effect -> Settle): ConfigStage -> Settle {
    st => ConfigStageOutcome(cache, c, p, fx, st)
  }

  /** `create_configurations`: store the status, render every instance's
      files, build the contexts, then build every worker's bootstrap. */
  function CreateConfigurations(cache: Cache, c: Config, p: Probe, fx: Effect -> Settle): (r: Trace<ConfigStage>)
    ensures r.started <= ConfigStages
    ensures r.outcome == Resolved <==>
              forall i :: 0 <= i < 4 ==> ConfigStageOutcome(cache, c, p, fx, ConfigStages[i]) == Resolved
    ensures BootstrapStage in r.started ==>
              && fx(Write(StatusPath)) == Resolved
              && (forall i :: 0 <= i < |ConfigurationRenders(c)| ==> fx(ConfigurationRenders(c)[i]) == Resolved)
              && (forall i :: 0 <= i < |ContextNames(c)| ==>
                    ContextOutcome(StoreStatus(cache, false, p, true).cache, c, ContextNames(c)[i], fx) == Resolved)
    ensures forall i :: 0 <= i < |r.started| - 1 ==> StageSettle(cache, c, p, fx)(r.started[i]) == Resolved
    ensures r.outcome == Resolved ==> r.started == ConfigStages
    ensures r.outcome != Resolved ==>
              0 < |r.started| && StageSettle(cache, c, p, fx)(r.started[|r.started| - 1]) == r.outcome
  {
    var settle := StageSettle(cache, c, p, fx);
    var r := Chain(ConfigStages, settle);
    BootstrapIsLast(r.started);
    assert BootstrapStage in r.started ==> forall i :: 0 <= i < 3 ==> settle(ConfigStages[i]) == Resolved;
    StagesBeforeBootstrap(cache, c, p, fx);
    r
  }

  /** What the three stages before the bootstraps guarantee once they all
      resolved. */
  lemma StagesBeforeBootstrap(cache: Cache, c: Config, p: Probe, fx: Effect -> Settle)
    ensures (forall i :: 0 <= i < 3 ==> ConfigStageOutcome(cache, c, p, fx, ConfigStages[i]) == Resolved) ==>
              && fx(Write(StatusPath)) == Resolved
              && (forall i :: 0 <= i < |ConfigurationRenders(c)| ==> fx(ConfigurationRenders(c)[i]) == Resolved)
              && (forall i :: 0 <= i < |ContextNames(c)| ==>
                    ContextOutcome(StoreStatus(cache, false, p, true).cache, c, ContextNames(c)[i], fx) == Resolved)
  {
    assert ConfigStages[0] == StoreStage && ConfigStages[1] == TemplateStage && ConfigStages[2] == ContextStage;
  }

  /** The bootstrap stage is the last of the four. */
  lemma BootstrapIsLast(started: seq<ConfigStage>)
    requires started <= ConfigStages
    ensures BootstrapStage in started ==> started == ConfigStages
  {
    if BootstrapStage in started {
      var k :| 0 <= k < |started| && started[k] == BootstrapStage;
      assert ConfigStages[k] == BootstrapStage;
    }
  }

  // ---------------------------------------------------------------------
  // Properties

  /** Within one role, every file is rendered for every instance. */
  lemma {:induction false} RoleRendersHave(names: seq<string>, files: seq<string>, k: nat, i: nat)
    requires k < |names| && i < |files|
    ensures Render("ejs/" + files[i] + ".ejs", "files/" + names[k] + "/" + files[i]) in RoleRenders(names, files)
    decreases k
  {
    var e := Render("ejs/" + files[i] + ".ejs", "files/" + names[k] + "/" + files[i]);
    var head := InstanceRenders(names[0], files);
    var rest := RoleRenders(names[1..], files);
    assert RoleRenders(names, files) == head + rest;
    if k == 0 {
      assert head[i] == e;
    } else {
      assert names[1..][k - 1] == names[k];
      RoleRendersHave(names[1..], files, k - 1, i);
      assert e in rest;
    }
  }

  /** `create_configurations` renders every file of the controller list
      into every controller's directory and every file of the worker list
      into every worker's. */
  lemma ConfigurationRendersCover(c: Config, k: nat, i: nat)
    ensures k < |Controllers(c)| && i < |ControllerFiles| ==>
              Render("ejs/" + ControllerFiles[i] + ".ejs", "files/" + Controllers(c)[k] + "/" + ControllerFiles[i])
              in ConfigurationRenders(c)
    ensures k < |Workers(c)| && i < |WorkerFiles| ==>
              Render("ejs/" + WorkerFiles[i] + ".ejs", "files/" + Workers(c)[k] + "/" + WorkerFiles[i])
              in ConfigurationRenders(c)
  {
    if k < |Controllers(c)| && i < |ControllerFiles| {
      RoleRendersHave(Controllers(c), ControllerFiles, k, i);
    }
    if k < |Workers(c)| && i < |WorkerFiles| {
      RoleRendersHave(Workers(c), WorkerFiles, k, i);
    }
  }

  /** `create_rules` stores the status exactly when all five rule
      commands resolved. */
  lemma RulesThenStatus(c: Config, fx: Effect -> Settle)
    ensures Write(StatusPath) in CreateRules(c, fx).started <==>
              forall i :: 0 <= i < 5 ==> fx(Provider(RuleSubcommands(c)[i])) == Resolved
  {
    var rules := Providers(RuleSubcommands(c));
    StatusWriteIsNoProvider(RuleSubcommands(c));
    ChainReachesLast(rules, Write(StatusPath), fx);
  }

  /** The firewall opens the five controller ports in the source's order. */
  lemma FirewallPorts(c: Config)
    ensures ControllerPorts(c) == "tcp:" + Port(c.ports.ssh) + "," + "tcp:" + Port(c.ports.health) + ","
                                  + "tcp:" + Port(c.ports.api) + "," + "tcp:" + Port(c.ports.etcdPeer) + ","
                                  + "tcp:" + Port(c.ports.etcdClient)
  {
    var xs := ["tcp:" + Port(c.ports.ssh), "tcp:" + Port(c.ports.health), "tcp:" + Port(c.ports.api),
               "tcp:" + Port(c.ports.etcdPeer), "tcp:" + Port(c.ports.etcdClient)];
    assert xs[1..] == xs[1..2] + xs[2..];
    assert xs[2..][1..] == xs[3..];
    assert xs[3..][1..] == xs[4..];
    assert Join(",", xs[4..]) == xs[4];
    assert Join(",", xs[3..]) == xs[3] + "," + xs[4];
    assert Join(",", xs[2..]) == xs[2] + "," + (xs[3] + "," + xs[4]);
    assert Join(",", xs[1..]) == xs[1] + "," + (xs[2] + "," + (xs[3] + "," + xs[4]));
  }

  /** The pod range text determines the ordinal, so no two workers share a
      pod range. */
  lemma PodCidrInjective(m: nat, n: nat)
    requires PodCidr(m) == PodCidr(n)
    ensures m == n
  {
    var a, b := NatToString(m), NatToString(n);
    var s := PodCidr(m);
    assert |a| == |b|;
    assert a == s[7..7 + |a|];
    assert b == s[7..7 + |b|];
    NatToStringInjective(m, n);
  }

  /** Worker `i` (0-based) is created with pod range `10.200.<i+1>.0/24`,
      and distinct workers get distinct ranges. */
  lemma WorkerPodCidrs(c: Config, i: nat, j: nat)
    requires i < |Workers(c)| && j < |Workers(c)|
    ensures Contains(WorkerCreates(c)[i], "--metadata pod-cidr=" + PodCidr(i + 1))
    ensures i != j ==> PodCidr(i + 1) != PodCidr(j + 1)
  {
    var meta := Meta(Worker, i + 1);
    var head := "instances create " + Workers(c)[i] + " " + "--zone=" + c.zone + " " + " ";
    var tail := ConfTail(c, Worker);
    assert WorkerCreates(c)[i] == head + meta + tail;
    ContainsMiddle(head, meta, tail);
    if PodCidr(i + 1) == PodCidr(j + 1) {
      PodCidrInjective(i + 1, j + 1);
    }
  }

  lemma ContainsMiddle(a: string, p: string, b: string)
    ensures Contains(a + p + b, p)
  {
    assert (a + p + b)[|a|..|a| + |p|] == p;
    assert OccursAt(a + p + b, p, |a|);
  }

  /** The teardown deletes the instances named by the topology and, last,
      the network. */
  lemma TeardownShape(c: Config)
    ensures DownSubcommands(c)[14] == "instances delete " + Join(" ", InstanceNames(c))
    ensures DownSubcommands(c)[17] == "networks delete " + c.app
  {
  }

  /** An uploaded certificate pair is the pair the certificate step
      issued for that common name. */
  lemma CertUploadsAreIssued(cert: string)
    requires !IsWorkerName(cert)
    ensures CertUploads(cert) == [CertificatePath(cert), KeyPath(cert)]
  {
    var pre := OutputPrefix(cert);
    assert pre == "files/" + ("certs/" + cert);
    assert "files/" + ("certs/" + cert) == "files/certs/" + cert;
    assert CertificatePath(cert) == "files/certs/" + cert + ".pem";
    assert KeyPath(cert) == "files/certs/" + cert + "-key.pem";
  }

  /** An uploaded kubeconfig is the file the context step wrote for that
      name, unless the name is the application's own. */
  lemma KubeconfigUploadIsWritten(app: string, name: string)
    requires name != app && !IsWorkerName(name)
    ensures KubeconfigPath(app, name) == Some(KubeconfigUpload(name))
  {
  }

  /** What a controller receives is what the certificate and context steps
      wrote: the CA, API server and service-account pairs and the
      controller manager, scheduler and admin kubeconfigs. */
  lemma ControllerUploadsAreIssued(app: string, inst: string)
    requires app != "kube-controller-manager" && app != "kube-scheduler" && app != "admin"
    ensures ControllerUploads(inst)[..6] == [CertificatePath("ca"), KeyPath("ca"), CertificatePath("kubernetes"),
                                             KeyPath("kubernetes"), CertificatePath("service-account"),
                                             KeyPath("service-account")]
    ensures Some(ControllerUploads(inst)[6]) == KubeconfigPath(app, "kube-controller-manager")
    ensures Some(ControllerUploads(inst)[7]) == KubeconfigPath(app, "kube-scheduler")
    ensures Some(ControllerUploads(inst)[8]) == KubeconfigPath(app, "admin")
  {
    FixedSubjectClasses();
    CertUploadsAreIssued("ca");
    CertUploadsAreIssued("kubernetes");
    CertUploadsAreIssued("service-account");
    KubeconfigUploadIsWritten(app, "kube-controller-manager");
    KubeconfigUploadIsWritten(app, "kube-scheduler");
    KubeconfigUploadIsWritten(app, "admin");
  }

  /** What a worker receives is what the bootstrap, context and
      certificate steps wrote: its bootstrap kubeconfig, the `kube-proxy`
      kubeconfig and the CA certificate. */
  lemma WorkerUploadsAreIssued(app: string, w: string)
    requires app != "kube-proxy"
    ensures WorkerUploads(w)[0] == BootstrapEffects(w)[3].output
    ensures Some(WorkerUploads(w)[1]) == KubeconfigPath(app, "kube-proxy")
    ensures WorkerUploads(w)[2] == CertificatePath("ca")
  {
    FixedSubjectClasses();
    KubeconfigUploadIsWritten(app, "kube-proxy");
    CaClass();
    CertUploadsAreIssued("ca");
    assert CaUpload == CertUploads("ca")[0];
    BootstrapOutputs(w);
  }

  /** A path matches a glob with one `*` when it starts with the part
      before the star and ends with the part after it, without overlap. */
  predicate GlobMatch(pre: string, suf: string, path: string) {
    StartsWith(path, pre) && EndsWith(path, suf) && |pre| + |suf| <= |path|
  }

  /** A name wrapped in a fixed prefix and suffix matches the glob whose
      star stands after `prefix + x` exactly when the name starts with `x`. */
  lemma WrappedGlob(prefix: string, x: string, w: string, suf: string)
    ensures GlobMatch(prefix + x, suf, prefix + w + suf) <==> StartsWith(w, x)
  {
    var path := prefix + w + suf;
    if StartsWith(w, x) {
      assert path[..|prefix + x|] == prefix + w[..|x|];
    }
    assert path[|path| - |suf|..] == suf;
    if GlobMatch(prefix + x, suf, path) {
      assert w[..|x|] == path[|prefix|..|prefix| + |x|];
    }
  }

  /** The glob's fixed part is the secret's output prefix followed by
      `worker`. */
  lemma SecretGlobText()
    ensures "files/bootstrap_secret-worker" == "files/" + SecretPrefix + "worker"
  {
  }

  lemma Regroup(a: string, b: string, w: string, d: string)
    ensures a + (b + w + d) == a + b + w + d
  {
  }

  /** The controllers' bootstrap-secret glob picks up a worker's secret
      exactly when the worker's name starts with `worker`. */
  lemma SecretGlobMatch(w: string)
    ensures GlobMatch("files/bootstrap_secret-worker", ".yaml", BootstrapEffects(w)[0].output) <==> StartsWith(w, "worker")
  {
    BootstrapOutputs(w);
    SecretGlobText();
    Regroup("files/", SecretPrefix, w, ".yaml");
    WrappedGlob("files/" + SecretPrefix, "worker", w, ".yaml");
  }
}

=== FILE: render.dfy ===
/** Template rendering paths (`renderFile`): which template is read and
    which file under `files/` receives the rendered text. */
module Render {
  import opened Text
  import opened Exec

  /** The template a file is rendered from. */
  function TemplatePath(file: string): (p: string)
    ensures StartsWith(p, "ejs/") && EndsWith(p, ".ejs")
    ensures |p| == |file| + 8 && p[4..|p| - 4] == file
  {
    var p := "ejs/" + file + ".ejs";
    assert p[..4] == "ejs/";
    assert p[|p| - 4..] == ".ejs";
    p
  }

  /** `file.replace(/\.?ejs\/?/g, '')`: scanning left to right, each
      `.ejs/`, `.ejs`, `ejs/` or `ejs` (longest first at the leftmost
      position) is removed, and scanning resumes after it. */
  function StripEjs(s: string): (r: string)
    ensures |r| <= |s|
    decreases |s|
  {
    if |s| == 0 then ""
    else if StartsWith(s, ".ejs/") then StripEjs(s[5..])
    else if StartsWith(s, ".ejs") then StripEjs(s[4..])
    else if StartsWith(s, "ejs/") then StripEjs(s[4..])
    else if StartsWith(s, "ejs") then StripEjs(s[3..])
    else [s[0]] + StripEjs(s[1..])
  }

  /** The output file: `files/` and the explicit output name when one is
      given (an empty one counts as missing), else the template name
      stripped of its `ejs` parts. */
  function OutputPath(file: string, outfile: string): (p: string)
    ensures StartsWith(p, "files/")
    ensures outfile != "" ==> p[6..] == outfile
  {
    var p := "files/" + (if outfile != "" then outfile else StripEjs(file));
    assert p[..6] == "files/";
    p
  }

  /** `renderFile(file, data, outfile)` as one effect. */
  function RenderFile(file: string, outfile: string): (e: Effect)
    ensures e.Render? && e.template == TemplatePath(file) && e.output == OutputPath(file, outfile)
  {
    Render(TemplatePath(file), OutputPath(file, outfile))
  }

  /** A render with an explicit output name writes exactly under `files/`. */
  lemma ExplicitOutput(file: string, outfile: string)
    requires outfile != ""
    ensures RenderFile(file, outfile).output == "files/" + outfile
  {
    var p := OutputPath(file, outfile);
    assert p == p[..6] + p[6..];
  }

  /** A name with no `ejs` in it passes through the stripping unchanged. */
  lemma {:induction false} StripEjsPlain(s: string)
    requires !Contains(s, "ejs")
    ensures StripEjs(s) == s
    decreases |s|
  {
    if |s| > 0 {
      PlainNoMatchAtHead(s);
      assert [s[0]] + s[1..] == s;
      assert !Contains(s[1..], "ejs") by {
        if Contains(s[1..], "ejs") {
          ContainsAfter([s[0]], s[1..], "ejs");
        }
      }
      StripEjsPlain(s[1..]);
    }
  }

  /** No removal starts at the first character of a string with no `ejs`
      in it. */
  lemma PlainNoMatchAtHead(s: string)
    requires !Contains(s, "ejs")
    ensures !StartsWith(s, ".ejs/") && !StartsWith(s, ".ejs") && !StartsWith(s, "ejs/") && !StartsWith(s, "ejs")
  {
    if |s| >= 3 {
      assert !OccursAt(s, "ejs", 0);
      assert s[..3] == s[0..3];
    }
    if |s| >= 4 {
      assert !OccursAt(s, "ejs", 1);
      assert s[..4][1..] == s[1..4];
    }
    if |s| >= 5 {
      assert s[..5][..4] == s[..4];
    }
  }

  /** Stripping a template name gives back the name it was made from: a
      trailing `.ejs` goes, everything before it stays, provided the name
      itself has no `ejs` in it. */
  lemma {:induction false} StripEjsSuffix(f: string)
    requires !Contains(f, "ejs")
    ensures StripEjs(f + ".ejs") == f
    decreases |f|
  {
    var s := f + ".ejs";
    if |f| == 0 {
      assert s == ".ejs";
      assert s[4..] == "";
    } else {
      SuffixNoMatchAtHead(f);
      assert StripEjs(s) == [s[0]] + StripEjs(s[1..]);
      assert s[1..] == f[1..] + ".ejs";
      assert [f[0]] + f[1..] == f;
      if Contains(f[1..], "ejs") {
        ContainsAfter([f[0]], f[1..], "ejs");
      }
      StripEjsSuffix(f[1..]);
      assert s[0] == f[0];
    }
  }

  /** No removal starts at the first character of `f + ".ejs"` when `f` is
      non-empty and has no `ejs` in it. */
  lemma SuffixNoMatchAtHead(f: string)
    requires |f| > 0 && !Contains(f, "ejs")
    ensures !StartsWith(f + ".ejs", ".ejs") && !StartsWith(f + ".ejs", "ejs")
  {
    var s := f + ".ejs";
    if |f| >= 4 {
      assert s[1..4] == f[1..4];
      assert !OccursAt(f, "ejs", 1);
    } else {
      assert s[|f|] == '.';
    }
    if |f| >= 3 {
      assert s[..3] == f[..3];
      assert !OccursAt(f, "ejs", 0);
    } else {
      assert s[|f|] == '.';
    }
  }

  /** A name without a `j` has no `ejs` in it. */
  lemma NoJ(s: string)
    requires 'j' !in s
    ensures !Contains(s, "ejs")
  {
    if Contains(s, "ejs") {
      ContainsChar(s, "ejs", 1);
    }
  }

  /** Rendering without an explicit output name writes to `files/` under
      the template's own name. */
  lemma DefaultOutputPath(file: string)
    requires !Contains(file, "ejs")
    ensures RenderFile(file, "") == Render("ejs/" + file + ".ejs", "files/" + file)
  {
    StripEjsPlain(file);
  }
}

=== FILE: text.dfy ===
/** String helpers shared by every part of the model: optional values, ASCII
    case mapping, decimal rendering of counters and ports, substring tests,
    joining, and the "drop one trailing line break" that every command's
    captured output goes through. */
module Text {

  /** A value that may be absent: the model's stand-in for JavaScript `null`
      and `undefined`. */
  datatype Option<+T> = None | Some(value: T)

  predicate StartsWith(s: string, p: string) {
    |p| <= |s| && s[..|p|] == p
  }

  predicate EndsWith(s: string, p: string) {
    |p| <= |s| && s[|s| - |p|..] == p
  }

  predicate NoDot(s: string) {
    forall i :: 0 <= i < |s| ==> s[i] != '.'
  }

  predicate OccursAt(s: string, p: string, i: int) {
    0 <= i && i + |p| <= |s| && s[i..i + |p|] == p
  }

  /** `p` occurs somewhere in `s`: what `s.match(p)` tests when `p` is a plain
      word with no regular-expression metacharacter in it. */
  predicate Contains(s: string, p: string) {
    exists i :: 0 <= i <= |s| - |p| && OccursAt(s, p, i)
  }

  lemma ContainsPrefix(a: string, b: string, p: string)
    requires Contains(a, p)
    ensures Contains(a + b, p)
  {
    var i :| 0 <= i <= |a| - |p| && OccursAt(a, p, i);
    assert (a + b)[i..i + |p|] == a[i..i + |p|];
    assert OccursAt(a + b, p, i);
  }

  lemma ContainsAfter(a: string, b: string, p: string)
    requires Contains(b, p)
    ensures Contains(a + b, p)
  {
    var i :| 0 <= i <= |b| - |p| && OccursAt(b, p, i);
    assert (a + b)[|a| + i..|a| + i + |p|] == b[i..i + |p|];
    assert OccursAt(a + b, p, |a| + i);
  }

  /** A string that starts with `p` contains it. */
  lemma StartsWithContains(s: string, p: string)
    requires StartsWith(s, p)
    ensures Contains(s, p)
  {
    assert OccursAt(s, p, 0);
  }

  /** A string shorter than `p` cannot contain it. */
  lemma ShortNoContains(s: string, p: string)
    requires |s| < |p|
    ensures !Contains(s, p)
  {
  }

  /** A string containing `p` contains each of `p`'s characters. */
  lemma ContainsChar(s: string, p: string, j: nat)
    requires j < |p| && Contains(s, p)
    ensures p[j] in s
  {
    var i :| 0 <= i <= |s| - |p| && OccursAt(s, p, i);
    assert s[i + j] == s[i..i + |p|][j];
  }

  function UpperChar(c: char): char {
    if 'a' <= c <= 'z' then (c as int - 32) as char else c
  }

  function LowerChar(c: char): char {
    if 'A' <= c <= 'Z' then (c as int + 32) as char else c
  }

  /** `toUpperCase()` restricted to ASCII letters. */
  function Upper(s: string): (r: string)
    ensures |r| == |s|
  {
    seq(|s|, i requires 0 <= i < |s| => UpperChar(s[i]))
  }

  /** `toLowerCase()` restricted to ASCII letters. */
  function Lower(s: string): (r: string)
    ensures |r| == |s|
  {
    seq(|s|, i requires 0 <= i < |s| => LowerChar(s[i]))
  }

  predicate IsDigit(c: char) {
    '0' <= c <= '9'
  }

  predicate IsDigits(s: string) {
    forall i :: 0 <= i < |s| ==> IsDigit(s[i])
  }

  function DigitChar(d: nat): (c: char)
    requires d < 10
    ensures IsDigit(c) && c as int - '0' as int == d
  {
    ('0' as int + d) as char
  }

  /** Decimal rendering of a non-negative integer, as JavaScript's template
      strings print an integral number. */
  function NatToString(n: nat): (r: string)
    ensures |r| > 0 && IsDigits(r)
    decreases n
  {
    if n < 10 then [DigitChar(n)] else NatToString(n / 10) + [DigitChar(n % 10)]
  }

  /** The decimal value of a string of digits; the inverse of NatToString. */
  function ParseDigits(s: string): nat
    requires IsDigits(s)
    decreases |s|
  {
    if |s| == 0 then 0
    else 10 * ParseDigits(s[..|s| - 1]) + (s[|s| - 1] as int - '0' as int)
  }

  lemma {:induction false} ParseNatToString(n: nat)
    ensures ParseDigits(NatToString(n)) == n
    decreases n
  {
    if n >= 10 {
      var s := NatToString(n);
      assert s[..|s| - 1] == NatToString(n / 10);
      ParseNatToString(n / 10);
    }
  }

  /** Decimal rendering is injective: distinct numbers print differently. */
  lemma NatToStringInjective(m: nat, n: nat)
    requires NatToString(m) == NatToString(n)
    ensures m == n
  {
    ParseNatToString(m);
    ParseNatToString(n);
  }

  /** `xs.join(sep)`. */
  function Join(sep: string, xs: seq<string>): string
    decreases |xs|
  {
    if |xs| == 0 then ""
    else if |xs| == 1 then xs[0]
    else xs[0] + sep + Join(sep, xs[1..])
  }

  lemma JoinThree(sep: string, a: string, b: string, d: string)
    ensures Join(sep, [a, b, d]) == a + sep + b + sep + d
  {
    assert [a, b, d][1..] == [b, d];
    assert [b, d][1..] == [d];
    assert Join(sep, [d]) == d;
    assert Join(sep, [b, d]) == b + sep + d;
    assert Join(sep, [a, b, d]) == a + sep + (b + sep + d);
  }

  /** The captured standard output of a command with one trailing line
      break removed: `stdout.replace(/\r?\n$/, '')`.  Without the multi-line
      flag `$` matches only at the very end, so at most one `\n` (with the
      `\r` before it, if any) goes. */
  function StripLineBreak(out: string): (r: string)
    ensures r <= out
    ensures |out| - 2 <= |r|
    ensures !EndsWith(out, "\n") ==> r == out
  {
    if EndsWith(out, "\r\n") then out[..|out| - 2]
    else if EndsWith(out, "\n") then out[..|out| - 1]
    else out
  }

  /** Stripping undoes appending a line break, in either convention; a bare
      `\n` after a `\r` is read as a CRLF pair, so that case excludes a
      trailing `\r`. */
  lemma StripLineBreakInverse(s: string)
    ensures StripLineBreak(s + "\r\n") == s
    ensures !EndsWith(s, "\r") ==> StripLineBreak(s + "\n") == s
  {
    var crlf := s + "\r\n";
    assert crlf[|crlf| - 2..] == "\r\n";
    assert crlf[..|crlf| - 2] == s;
    var lf := s + "\n";
    assert lf[..|lf| - 1] == s;
    if !EndsWith(s, "\r") && |s| > 0 {
      assert lf[|lf| - 2] == s[|s| - 1];
      assert s[|s| - 1..] == [s[|s| - 1]];
      assert lf[|lf| - 2..] != "\r\n";
    }
  }

  /** The first position at or after `from` where `pat` occurs. */
  function FirstMatch(s: string, pat: string, from: nat): (r: Option<nat>)
    ensures r.Some? ==> from <= r.value && OccursAt(s, pat, r.value)
    decreases |s| - from
  {
    if from + |pat| > |s| then None
    else if OccursAt(s, pat, from) then Some(from)
    else FirstMatch(s, pat, from + 1)
  }

  /** `s.replace(pat, rep)` with a string pattern: only the first occurrence
      is replaced. */
  function ReplaceFirst(s: string, pat: string, rep: string): string {
    match FirstMatch(s, pat, 0)
    case None => s
    case Some(i) => s[..i] + rep + s[i + |pat|..]
  }

  /** The search stops at the first occurrence. */
  lemma {:induction false} FirstMatchFinds(s: string, pat: string, from: nat, k: nat)
    requires from <= k && OccursAt(s, pat, k)
    requires forall i :: from <= i < k ==> !OccursAt(s, pat, i)
    ensures FirstMatch(s, pat, from) == Some(k)
    decreases k - from
  {
    if from < k {
      FirstMatchFinds(s, pat, from + 1, k);
    }
  }
}
